=== FILE: README.md ===
# PDF takeoff: a verified model of the counting core

pdf-takeoff is a browser tool for counting items on construction drawings.
The user uploads a PDF and defines *symbols*: marker kinds with a name,
colour, shape and size. Clicking on a page places an *annotation* of the
active symbol at that point. The tool counts annotations per symbol and per
page, and exports the counts as CSV.

This project models in Dafny:

- the store that owns the symbols and annotations (`src/store.ts`, `src/types.ts`);
- the CSV export and the count panels (`src/components/ExportTools.tsx`);
- the viewer's navigation, zoom, keyboard and click handlers (`src/components/PDFViewer.tsx`);
- the marker placement and removal dialog (`src/components/AnnotationLayer.tsx`);
- the symbol palette's form, size labels, edit toggle and delete dialog (`src/components/SymbolPalette.tsx`).

Modules:

- `Types` (types.dfy): the entities, and the referential-integrity and unique-id predicates.
- `Text` (text.dfy): the JavaScript string behaviour the components rely on:
  - decimal rendering of numbers;
  - `trim` over the ECMAScript whitespace set;
  - upper-casing of a first letter;
  - character counting.
- `Queries` (queries.dfy): the store's read-only queries as functions over its lists.
  - `Select` is the one order-preserving filter behind every `filter` over annotations; the `filter` over symbols in `removeSymbol` is `SymbolsWithout`.
  - Lemmas give the counting facts.
- `Store` (store.dfy): class `AppStore`.
  - Its mutators replace fields, as the store's `set` calls do.
  - The two loop-built queries are methods proved against the functions of `Queries`.
- `Export` (export.dfy): the two CSV layouts as functions.
  - `exportCSV` is written as loops proved to build them.
  - Lemmas count lines, plus the per-page view lookup and "Total Items".
- `Viewer` (viewer.dfy): class `PdfViewer`, whose handlers drive the store.
- `AnnotationLayer` (annotation_layer.dfy): marker geometry, the skip-missing-symbol filter, and class `RemovalDialog`.
- `SymbolPalette` (symbol_palette.dfy): size labels, the form, and class `Palette`.

Ids, which the source builds from `Date.now()` and `Math.random()`, are a
parameter of `AddSymbol`, `AddAnnotation` and the handlers that call them.
Symbol-id uniqueness is proved under the hypothesis that the new id is unused. The
source does not guarantee that, and nothing is proved about annotation ids.

The store is *consistent* (`Store.AppStore.Consistent`) when every
annotation names a live symbol and the active symbol, if any, is one of the
symbols. The store's mutators do not check this; the model proves that every
handler that changes symbols or annotations keeps a consistent store
consistent. The click handler keeps it because it only places annotations of
the active symbol, and `removeSymbol` clears the active symbol it deletes.

Behaviour of the code that the model keeps as written:

- `removeAnnotation` drops every annotation carrying the id, not just one.
- `setScale` and `setActivePage` store their argument without clamping.
  The navigation handlers keep the page in 1..totalPages. The zoom handlers
  are meant to keep the scale in 0.5..2.5, but as written they store the
  updater callback instead (see "## Findings").
- Loading a new file keeps the symbols, the annotations and `activePage`.
- `getSymbolPageCounts` only looks at pages 1..`totalPages`. So the per-page
  CSV gives the `"All",0` row to a symbol that has annotations, if they all
  lie outside that range (`Export.FallbackExactlyWhenNoPageInRange`).
- The palette's shape buttons offer circle, square and triangle only. The
  `custom` shape, and with it the lettered marker, cannot be chosen from the
  palette.

## Model

| member | source | states |
|---|---|---|
| Types.SizeOrDefault | src/store.ts:24 | a size of 0 becomes the default 24 and any other size is kept, so the size stored or drawn is never 0 (the `size \|\| 24` default) |
| Text.NatToDecimal | src/components/ExportTools.tsx:80 | the rendered count is a non-empty string of digits with no leading zero |
| Text.IntToDecimal | src/components/ExportTools.tsx:62 | the rendered page, count or size is non-empty; it starts with '-' exactly when the value is negative, and the rest is digits |
| Text.IntToDecimalValue | src/components/ExportTools.tsx:62 | the rendered integer denotes it: the digits of a non-negative value read back as the value, and behind the single leading '-' of a negative one they read back as its magnitude |
| Text.DecimalRoundTrip | src/components/ExportTools.tsx:80 | reading back the digits of a rendered count gives the count again |
| Text.TrimStart | src/components/SymbolPalette.tsx:66 | the result is a suffix of the input, everything cut off is whitespace, and the result does not start with whitespace |
| Text.TrimEnd | src/components/SymbolPalette.tsx:66 | the result is a prefix of the input, everything cut off is whitespace, and the result does not end with whitespace |
| Text.Trim | src/components/SymbolPalette.tsx:66 | defines `trim` as stripping both ends; the result is no longer than the input and neither starts nor ends with whitespace |
| Text.TrimEmptyIffBlank | src/components/SymbolPalette.tsx:66 | `trim` leaves nothing exactly when every character is whitespace |
| Text.FirstLetterUpper | src/components/AnnotationLayer.tsx:131 | the label is empty exactly for an empty name, and is otherwise the upper-cased first character |
| Queries.Select | src/store.ts:62-79 | the filter keeps exactly the annotations that match, and nothing longer than the input |
| Queries.AnnotationsForPage | src/store.ts:62-64 | defines `getAnnotationsForPage`: exactly the annotations on that page |
| Queries.SymbolCount | src/store.ts:70-72 | defines `getSymbolCount` as the length of the symbol's filter, at most the number of annotations |
| Queries.SymbolCountByPage | src/store.ts:75-79 | defines `getSymbolCountByPage` as the length of the symbol-and-page filter, at most the number of annotations |
| Queries.SelectAppend | src/store.ts:35-41 | filtering distributes over concatenation, so survivors keep their relative order |
| Queries.SelectMonotone | src/store.ts:75-79 | a stricter filter keeps no more annotations |
| Queries.SelectComplement | src/store.ts:35-37 | a filter and its complement together keep every annotation exactly once |
| Queries.SelectNested | src/store.ts:86-89 | filtering by a weaker condition first does not change a stricter filter |
| Queries.SymbolById | src/store.ts:66-68 | the lookup finds nothing exactly when no symbol has the id, and otherwise returns the first symbol with it |
| Queries.SymbolsWithout | src/store.ts:40 | the survivors are exactly the symbols with another id, and the id set loses exactly that id |
| Queries.SymbolsWithoutAppend | src/store.ts:40 | the symbol filter distributes over concatenation, so survivors keep their relative order and every copy is kept or dropped on its own |
| Queries.SymbolsWithoutSingle | src/store.ts:40 | a single symbol survives exactly when its id is not the removed one; with `Queries.SymbolsWithoutAppend` this fixes the filter element by element |
| Queries.PageCountsFromInRange | src/store.ts:86-94 | every entry for pages lo..hi names a page in that range |
| Queries.PageCountsFromCounts | src/store.ts:87-92 | every entry carries its page's non-zero `getSymbolCountByPage` |
| Queries.PageCountsFromAscending | src/store.ts:86-94 | the entries' pages strictly ascend |
| Queries.PageCountsFromEntries | src/store.ts:86-94 | every per-page entry is for a page in range, carries a non-zero count equal to `getSymbolCountByPage`, and pages strictly ascend |
| Queries.PageCountsFromPages | src/store.ts:86-94 | the entries name exactly the pages in range where the symbol has at least one annotation |
| Queries.PageCountsProperties | src/store.ts:81-97 | the result of `getSymbolPageCounts` has pages in 1..totalPages, strictly ascending, each with its non-zero `getSymbolCountByPage`, and names exactly the pages in range where the symbol has annotations |
| Queries.PageCounts | src/store.ts:81-97 | defines the result of `getSymbolPageCounts`; its entries lie in 1..totalPages and strictly ascend (the rest is `Queries.PageCountsProperties`) |
| Queries.PageSet | src/store.ts:99-104 | defines the set of annotation pages that `getPagesWithSymbols` collects (no contract of its own; see `Store.AppStore.GetPagesWithSymbols`) |
| Queries.CountByPageAtMostTotal | src/store.ts:70-79 | a symbol's count on one page never exceeds its total count |
| Queries.SumPageCountsFrom | src/store.ts:86-94 | the entries' counts add up to the symbol's annotations on the pages scanned |
| Queries.PageCountsSum | src/store.ts:81-97 | the per-page counts add up to at most `getSymbolCount`, and exactly to it when all of the symbol's annotations are on pages 1..totalPages |
| Queries.AscendingUnique | src/store.ts:105 | two strictly ascending lists with the same elements are equal, so the sorted page list is determined by its page set |
| Queries.CascadeRemovesExactlyCount | src/store.ts:35-41 | the cascade removes exactly `getSymbolCount(id)` annotations, leaves none of that symbol, and keeps every other symbol's count |
| Store.ActiveAfterRemoval | src/store.ts:42 | the active symbol is cleared exactly when it is the removed one, and is otherwise kept |
| Store.AppStore.constructor | src/store.ts:5-11 | the initial state: no file, no symbols or annotations, page 1 of 0, no active symbol, scale 1; it is consistent |
| Store.AppStore.SetPdfFile | src/store.ts:13 | only the file changes; symbols, annotations and the page are kept |
| Store.AppStore.SetTotalPages | src/store.ts:14 | only the page count changes |
| Store.AppStore.SetActivePage | src/store.ts:15 | only the page changes, to the value given, with no clamping |
| Store.AppStore.SetScale | src/store.ts:16 | only the scale changes, to the value given, with no clamping |
| Store.AppStore.AddSymbol | src/store.ts:18-30 | exactly one symbol is appended (caller fields, the new id, count 0, size defaulted) and becomes active; annotations are untouched; a consistent store stays consistent |
| Store.AppStore.RemoveSymbol | src/store.ts:32-45 | drops the symbols with the id (order kept, `Queries.SymbolsWithoutAppend`) and exactly their annotations, clears the active symbol only if it was that one, and keeps referential integrity and a live active symbol |
| Store.AppStore.SetActiveSymbol | src/store.ts:47 | only the active symbol changes, unchecked; consistency survives when the new one is none or one of the symbols |
| Store.AppStore.AddAnnotation | src/store.ts:49-54 | exactly one annotation (caller fields and the new id) is appended at the end; symbols are untouched; from a consistent store, the result is consistent exactly when the new annotation names a live symbol |
| Store.AppStore.RemoveAnnotation | src/store.ts:56-60 | every annotation with the id is dropped and the rest kept in order; symbols are untouched; a consistent store stays consistent |
| Store.AppStore.GetSymbolPageCounts | src/store.ts:81-97 | the loop over pages 1..totalPages returns exactly `PageCounts` for the store's annotations, whose properties `Queries.PageCountsProperties` states |
| Store.PageCountsSnoc | src/store.ts:86-94 | scanning one more page appends that page's entry exactly when its count is not 0, and nothing otherwise |
| Store.AppStore.GetPagesWithSymbols | src/store.ts:99-106 | the result is strictly ascending and holds exactly the pages of all annotations, whatever `totalPages` is |
| Store.LeastElement | src/store.ts:105 | a non-empty set of pages has a least element |
| Store.SortAscending | src/store.ts:105 | sorting a set of pages yields them strictly ascending, each exactly once |
| Store.RemoveSymbolKeepsIntegrity | src/store.ts:35-42 | if every annotation referenced a live symbol before `removeSymbol`, every survivor still does |
| Store.AddAnnotationIntegrity | src/store.ts:49-54 | appending keeps referential integrity exactly when the new annotation's symbol is live (the store does not check it) |
| Store.RemovalKeepsActiveLive | src/store.ts:32-45 | after `removeSymbol` the active symbol is either cleared or still one of the surviving symbols |
| Store.ClickKeepsIntegrity | src/components/PDFViewer.tsx:75-91 | placing an annotation of a live active symbol keeps every annotation pointing at a live symbol |
| Store.GrowShrinkKeepIntegrity | src/store.ts:26-58 | appending a symbol or removing annotations never breaks referential integrity |
| Store.UniqueIdsPreserved | src/store.ts:18-40 | symbol ids stay distinct under appending a symbol with an unused id and under removal |
| Store.WithoutKeepsUnique | src/store.ts:40 | removing symbols keeps their ids distinct |
| Store.RemoveAnnotationExact | src/store.ts:56-60 | `removeAnnotation` keeps exactly the annotations with another id, and is a no-op when the id is absent |
| Export.FallbackRow | src/components/ExportTools.tsx:59 | the fallback row ends with `"All",0` and a newline, the 0 unquoted |
| Export.TotalsCsv | src/components/ExportTools.tsx:74-80 | defines the totals layout: the header, then one row per symbol with `getSymbolCount`; the text starts with the header |
| Export.ByPageCsv | src/components/ExportTools.tsx:50-64 | defines the per-page layout: the header, then each symbol's page rows or its fallback row; the text starts with the header |
| Export.ExportCsv | src/components/ExportTools.tsx:51-91 | the CSV text is the per-page layout when that view is selected and the totals layout otherwise |
| Export.ExportByPageCsv | src/components/ExportTools.tsx:52-65 | the loop over symbols builds exactly the per-page layout |
| Export.AppendSymbolRows | src/components/ExportTools.tsx:56-64 | one symbol contributes its fallback row when it has no entries, and otherwise its entry rows |
| Export.AppendPageRows | src/components/ExportTools.tsx:61-63 | the inner loop appends one row per entry, in the entries' order |
| Export.ExportTotalsCsv | src/components/ExportTools.tsx:74-81 | the loop over symbols builds exactly the totals layout, one row per symbol with its `getSymbolCount` |
| Export.RowLineBreaks | src/components/ExportTools.tsx:59-80 | each totals, entry or fallback row is exactly one line when the name and colour hold no line break |
| Export.HeaderLines | src/components/ExportTools.tsx:54 | each header is exactly one line |
| Export.TotalsCsvLines | src/components/ExportTools.tsx:76-81 | the totals CSV has 1 + (number of symbols) lines |
| Export.ByPageCsvLines | src/components/ExportTools.tsx:54-65 | the per-page CSV has 1 + Σ max(1, number of entries) lines |
| Export.FallbackExactlyWhenNoPageInRange | src/components/ExportTools.tsx:57-59 | a symbol gets the `"All",0` row exactly when none of its annotations lies on a page in 1..totalPages |
| Export.PageCountOf | src/components/ExportTools.tsx:203 | the lookup gives the first matching entry's count, and 0 when no entry is for that page |
| Export.ViewCountMatchesStore | src/components/ExportTools.tsx:202-203 | the per-page view shows `getSymbolCountByPage` on pages 1..totalPages and 0 elsewhere |
| Export.PageViewRows | src/components/ExportTools.tsx:200-205 | a page's section lists each symbol with a non-zero count on that page, with that count, and no other |
| Export.PageViewRowsAppend | src/components/ExportTools.tsx:200-205 | the rows follow the symbol list's order: the rows for `a + b` are those for `a` followed by those for `b` |
| Export.TotalItemsCountsListed | src/components/ExportTools.tsx:241 | with distinct symbol ids, "Total Items" counts each annotation of a listed symbol exactly once |
| Export.TotalItems | src/components/ExportTools.tsx:241 | defines "Total Items" as the sum of `getSymbolCount` over the symbol list (no contract of its own; see `Export.TotalItemsCountsListed` and `Export.TotalItemsBound`) |
| Export.TotalItemsBound | src/components/ExportTools.tsx:294 | when symbol ids are distinct (which the store does not enforce), "Total Items" is at most the number of annotations, and equal to it under referential integrity |
| Viewer.PageAfterPrevious | src/components/PDFViewer.tsx:35-40 | the page moves back by exactly one when it is above 1, otherwise stays, and never drops below 1 from a valid page |
| Viewer.PageAfterNext | src/components/PDFViewer.tsx:42-47 | the page moves forward by exactly one when below the last page, otherwise stays, and never passes the last page |
| Viewer.NavigationKeepsPageInRange | src/components/PDFViewer.tsx:35-47 | both navigation steps keep the page in 1..totalPages when it was there |
| Viewer.NavigationInverse | src/components/PDFViewer.tsx:35-47 | a step forward then back, or back then forward, returns to the page whenever the first step moved |
| Viewer.ZoomedIn | src/components/PDFViewer.tsx:50 | the new scale is at most 2.5 and is either the old scale plus 0.1 or 2.5 |
| Viewer.ZoomedOut | src/components/PDFViewer.tsx:54 | the new scale is at least 0.5 and is either the old scale minus 0.1 or 0.5 |
| Viewer.ZoomKeepsScaleInRange | src/components/PDFViewer.tsx:49-55 | both zoom steps keep the scale in 0.5..2.5; zooming in never shrinks it and zooming out never grows it |
| Viewer.ZoomInverse | src/components/PDFViewer.tsx:49-55 | away from the bounds, one step in and one out cancel |
| Viewer.ZoomInSaturates | src/components/PDFViewer.tsx:50 | within one step of 2.5, zooming in reaches 2.5 and stays there |
| Viewer.ZoomAsWrittenLosesScale | src/components/PDFViewer.tsx:49-55 | as written, the store holds the updater callback instead of a number after a zoom, so 1.0 does not become 1.1; the callback would compute the intended scale |
| Viewer.ScaleAfterZoomAsWritten | src/components/PDFViewer.tsx:49-55 | defines what the source's store holds after a zoom button as written: the updater itself, whatever the previous scale (no contract of its own; see `Viewer.ZoomAsWrittenLosesScale`) |
| Viewer.AcceptedFile | src/components/PDFViewer.tsx:104-106 | a file is accepted exactly when there is a first file and its type is `application/pdf`, and then it is that file |
| Viewer.PdfViewer.constructor | src/components/PDFViewer.tsx:25-27 | the viewer starts loading with no drag highlight |
| Viewer.PdfViewer.GoToPreviousPage | src/components/PDFViewer.tsx:35-40 | only the page changes, by `PageAfterPrevious`, and the viewer marks itself loading exactly when the page moved |
| Viewer.PdfViewer.GoToNextPage | src/components/PDFViewer.tsx:42-47 | only the page changes, by `PageAfterNext`, and the viewer marks itself loading exactly when the page moved |
| Viewer.PdfViewer.ZoomIn | src/components/PDFViewer.tsx:49-51 | only the scale changes, to `ZoomedIn` of the previous scale |
| Viewer.PdfViewer.ZoomOut | src/components/PDFViewer.tsx:53-55 | only the scale changes, to `ZoomedOut` of the previous scale |
| Viewer.PdfViewer.HandleKeyDown | src/components/PDFViewer.tsx:61-66 | ArrowLeft and ArrowRight navigate, `+` and `=` zoom in, `-` zooms out, and any other key changes nothing |
| Viewer.PdfViewer.HandleClick | src/components/PDFViewer.tsx:75-91 | with no active symbol or no file nothing changes; otherwise exactly one annotation of the active symbol on the current page is appended, at the click offsets divided by the scale; a consistent store stays consistent |
| Viewer.PdfViewer.HandleFileChange | src/components/PDFViewer.tsx:102-112 | a PDF as first file becomes the document; any other type is refused with an alert and changes nothing |
| Viewer.PdfViewer.HandleDrop | src/components/PDFViewer.tsx:114-126 | the drag highlight is cleared, and the first dropped file is gated as in `handleFileChange` |
| AnnotationLayer.RenderSymbol | src/components/AnnotationLayer.tsx:43-131 | the marker has size `size \|\| 24`, is centred on the stored point times the scale in every shape branch, and only a custom marker is labelled with the upper-cased initial |
| AnnotationLayer.MarkersFor | src/components/AnnotationLayer.tsx:143-152 | the layer draws exactly as many markers as there are annotations whose symbol is live |
| AnnotationLayer.MarkersForSelect | src/components/AnnotationLayer.tsx:143-152 | skipping the annotations of deleted symbols is the same as filtering them out first |
| AnnotationLayer.MarkersForCons | src/components/AnnotationLayer.tsx:143-152 | an annotation of a live symbol is drawn before the markers of the rest |
| AnnotationLayer.MarkersForAt | src/components/AnnotationLayer.tsx:143-152 | under referential integrity the i-th marker is the i-th annotation drawn from its own symbol |
| AnnotationLayer.MarkersForLive | src/components/AnnotationLayer.tsx:144-145 | every drawn marker belongs to an annotation whose symbol is live |
| AnnotationLayer.MarkersForComplete | src/components/AnnotationLayer.tsx:143-149 | under referential integrity nothing is skipped: one marker per annotation, in order, drawn from its own symbol |
| AnnotationLayer.VisibleMarkersCount | src/components/AnnotationLayer.tsx:143-145 | a page shows at most its annotations' count of markers, and exactly that many under referential integrity |
| AnnotationLayer.VisibleMarkers | src/components/AnnotationLayer.tsx:28 | defines what the layer draws for a page: the markers of `getAnnotationsForPage`, never more than that page's annotations |
| AnnotationLayer.VisibleMarkersExact | src/components/AnnotationLayer.tsx:143-152 | whatever the references, a page shows one marker per annotation on it whose symbol is live, in order, each drawn from that symbol |
| AnnotationLayer.VisibleMarkersOnPage | src/components/AnnotationLayer.tsx:28 | every marker drawn on a page is of an annotation on that page with a live symbol |
| AnnotationLayer.PlaceThenRender | src/components/AnnotationLayer.tsx:53-54 | a click placed at scale s and drawn at scale s2 is centred at (px/s·s2, py/s·s2), and back under the click when s2 = s |
| AnnotationLayer.RenderAtOneAndAHalf | src/components/AnnotationLayer.tsx:53-54 | a marker stored at (100, 200) and drawn at scale 1.5 is centred at (150, 300) |
| AnnotationLayer.RemovalDialog.constructor | src/components/AnnotationLayer.tsx:25-26 | the dialog starts closed with nothing selected |
| AnnotationLayer.RemovalDialog.HandleRemoveClick | src/components/AnnotationLayer.tsx:30-33 | the annotation is selected and the dialog opens |
| AnnotationLayer.RemovalDialog.ConfirmRemoval | src/components/AnnotationLayer.tsx:35-41 | `removeAnnotation` runs only for a selected (non-empty) id, and the dialog always closes with the selection cleared; a consistent store stays consistent |
| AnnotationLayer.RemovalDialog.CancelRemoval | src/components/AnnotationLayer.tsx:161 | cancelling closes the dialog and keeps the selection |
| SymbolPalette.GetSizeLabel | src/components/SymbolPalette.tsx:120-125 | Small exactly up to 16, Medium above 16 up to 24, Large above 24 up to 32, X-Large above 32 |
| SymbolPalette.SizeLabelMonotone | src/components/SymbolPalette.tsx:120-125 | a larger size never gets a smaller band |
| SymbolPalette.SliderReachesEveryLabel | src/components/SymbolPalette.tsx:244-249 | the slider's range 12..48 reaches every band, and the default size 24 is Medium |
| SymbolPalette.DefaultFormValid | src/components/SymbolPalette.tsx:50-55 | the reset form (empty name, #FF5252, circle, 24) is a form the controls can produce |
| SymbolPalette.NameAcceptedIffNotBlank | src/components/SymbolPalette.tsx:66-69 | a name is refused exactly when it is empty or all whitespace |
| SymbolPalette.CreatedSymbolSizeInRange | src/components/SymbolPalette.tsx:36-37 | a symbol created from the form keeps the form's size, which lies in 12..48 |
| SymbolPalette.Toggled | src/components/SymbolPalette.tsx:98-104 | the editing id becomes null exactly when it was the toggled id, and otherwise becomes that id |
| SymbolPalette.ToggleTwice | src/components/SymbolPalette.tsx:98-104 | toggling twice restores null or the same id, and from another id ends at null |
| SymbolPalette.Palette.constructor | src/components/SymbolPalette.tsx:50-60 | the palette starts with the default form, not creating, not editing, no pending deletion |
| SymbolPalette.Palette.StartCreating | src/components/SymbolPalette.tsx:169 | the form opens and nothing else changes |
| SymbolPalette.Palette.SetFormName | src/components/SymbolPalette.tsx:186-189 | only the name changes, and the form stays valid for names within the 50-character field |
| SymbolPalette.Palette.SetFormColor | src/components/SymbolPalette.tsx:291 | only the colour changes, to one of the offered colours |
| SymbolPalette.Palette.SetFormShape | src/components/SymbolPalette.tsx:213 | only the shape changes, to one of the offered shapes |
| SymbolPalette.Palette.SetFormSize | src/components/SymbolPalette.tsx:249 | only the size changes, to a value on the slider |
| SymbolPalette.Palette.HandleAddSymbol | src/components/SymbolPalette.tsx:65-86 | a blank name alerts and changes nothing; otherwise the untrimmed form fields are appended as a new active symbol, and the form resets and closes; a consistent store stays consistent |
| SymbolPalette.Palette.HandleCancel | src/components/SymbolPalette.tsx:88-96 | the form closes and resets to the defaults |
| SymbolPalette.Palette.ToggleEditSymbol | src/components/SymbolPalette.tsx:98-104 | only the editing id changes, as `Toggled` says |
| SymbolPalette.Palette.SelectSymbol | src/components/SymbolPalette.tsx:334-351 | clicking one of the listed symbols makes it active unless it is being edited, so a consistent store stays consistent |
| SymbolPalette.Palette.HandleDeleteClick | src/components/SymbolPalette.tsx:106-110 | the symbol becomes pending and the dialog opens |
| SymbolPalette.Palette.ConfirmDelete | src/components/SymbolPalette.tsx:112-118 | `removeSymbol` (with its cascade) runs only for a pending symbol, and the dialog always closes with nothing pending; a consistent store stays consistent |
| SymbolPalette.Palette.CancelDelete | src/components/SymbolPalette.tsx:437 | cancelling closes the dialog and keeps the pending symbol |

## Left out

- Ids from `Date.now()` and `Math.random()` (src/store.ts:19, 50) are a caller-supplied parameter. The source does not guarantee uniqueness, so `Store.UniqueIdsPreserved` assumes an unused id.
- Floating point. Scale, coordinates and the 0.1 zoom steps are exact `real`s. So the zoom inverse and the click round trip hold exactly here, but only approximately in the browser.
- Viewer.PdfViewer.HandleClick: requires a non-zero number as the scale. The source does not guarantee one: `setScale` stores any argument, and as written the zoom buttons store a callback (see "## Findings"). Dividing by a zero scale would give an infinite coordinate, or NaN for a zero offset; that case is not modelled.
- `Viewer.PdfViewer.HandleClick` takes the click offset from the page's corner as given. It does not model `getBoundingClientRect`.
- Viewer.PdfViewer.HandleFileChange and Viewer.PdfViewer.HandleDrop may replace a loaded file. In the source the file input and the drop handlers exist only while no PDF is loaded (src/components/PDFViewer.tsx:201, 274-280), so that call never happens there.
- Symbol's optional `icon` field (src/types.ts:8) is not modelled: the store never sets or reads it.
- SymbolPalette.Palette.SelectSymbol requires the clicked symbol to be one of the store's symbols, because the palette renders its rows from that list (src/components/SymbolPalette.tsx:334).
- Sizes are integers, as the slider's `parseInt` produces. `size || 24` therefore treats only 0 as missing; `NaN` is not modelled.
- `toUpperCase` is modelled for ASCII letters only (`Text.ToUpperAscii`); other characters keep their case.
- The document's load callbacks (src/components/PDFViewer.tsx:30-33, 93-99), full-width toggle and drag-over/leave highlighting are not modelled. Nor are react-pdf rendering, the PDF.js worker or the percentage display.
- The CSV download, file names, PNG export and printing are not modelled, and nor is `alert`. Alerts are modelled only as the `alerted` result of the handlers that raise them.
- Export: fields are pasted between quotes verbatim, as the source does. A name containing `"` or a line break therefore yields CSV that does not parse back. The line-count lemmas assume names and colours without line breaks.
- React and zustand plumbing (hooks, re-renders, effect registration of the key handler) is not modelled. Component state is fields of a class.
- Modal.tsx, Popover.tsx, PDFUploader.tsx and App.tsx are not part of this model.

## Findings

| source | as written | input that shows it | evidently intended | confidence | as-written member | corrected member |
|---|---|---|---|---|---|---|
| src/components/PDFViewer.tsx:49-55 | `zoomIn`/`zoomOut` pass an updater callback to `setScale`, but `setScale` (src/store.ts:16) stores its argument as is, so `scale` becomes a function | scale 1.0, press `+`: the stored scale is the callback, not 1.1, and `x / scale` in `handleClick` gives NaN | the callback applied to the previous scale: `min(s + 0.1, 2.5)` and `max(s - 0.1, 0.5)` | medium, not executed | Viewer.ZoomAsWrittenLosesScale | Viewer.PdfViewer.ZoomIn |

=== FILE: annotation_layer.dfy ===
/** The annotation layer drawn over one page: where each marker goes, which
    annotations get a marker, and the remove-confirmation dialog. */
module AnnotationLayer {
  import opened Types
  import opened Text
  import opened Queries
  import opened Store

  /** What the layer draws for one annotation: a box of side `size` whose
      top-left corner is at (`left`, `top`) in screen pixels, with the
      symbol's color and shape; only a custom marker carries a text label. */
  datatype Marker = Marker(annotationId: string, left: real, top: real, size: int,
                           color: string, shape: Shape, caption: string)

  /** `renderSymbol`: every shape branch places the box so that its centre
      is the stored point multiplied by the scale. */
  function RenderSymbol(annotation: Annotation, symbol: Symbol, scale: real): (m: Marker)
    ensures m.size == SizeOrDefault(symbol.size) && m.size != 0
    ensures m.left + (m.size as real) / 2.0 == annotation.x * scale
    ensures m.top + (m.size as real) / 2.0 == annotation.y * scale
    ensures m.annotationId == annotation.id && m.color == symbol.color && m.shape == symbol.shape
    ensures m.caption != [] <==> symbol.shape == Custom && symbol.name != []
    ensures m.caption != [] ==> m.caption == [ToUpperAscii(symbol.name[0])]
  {
    var size := SizeOrDefault(symbol.size);
    var left := annotation.x * scale - (size as real) / 2.0;
    var top := annotation.y * scale - (size as real) / 2.0;
    var caption := if symbol.shape == Custom then FirstLetterUpper(symbol.name) else "";
    Marker(annotation.id, left, top, size, symbol.color, symbol.shape, caption)
  }

  /** The markers for a list of annotations, skipping every annotation whose
      symbol is no longer in the list: one marker per annotation of a live
      symbol. */
  function MarkersFor(symbols: seq<Symbol>, annotations: seq<Annotation>, scale: real): (r: seq<Marker>)
    ensures |r| == |Select(annotations, OfSymbolIn(SymbolIds(symbols)))| <= |annotations|
  {
    if annotations == [] then []
    else
      var symbol := SymbolById(symbols, annotations[0].symbolId);
      var rest := MarkersFor(symbols, annotations[1..], scale);
      if symbol.None? then rest else [RenderSymbol(annotations[0], symbol.value, scale)] + rest
  }

  /** Skipping is filtering: the markers are those of the annotations whose
      symbol is live, so dropping the others first changes nothing. */
  lemma {:induction false} MarkersForSelect(symbols: seq<Symbol>, annotations: seq<Annotation>, scale: real)
    ensures MarkersFor(symbols, annotations, scale) ==
            MarkersFor(symbols, Select(annotations, OfSymbolIn(SymbolIds(symbols))), scale)
  {
    if annotations != [] {
      MarkersForSelect(symbols, annotations[1..], scale);
      var live := OfSymbolIn(SymbolIds(symbols));
      var rest := Select(annotations[1..], live);
      if Matches(annotations[0], live) {
        var kept := [annotations[0]] + rest;
        assert Select(annotations, live) == kept;
        assert kept[0] == annotations[0] && kept[1..] == rest;
      } else {
        assert Select(annotations, live) == [] + rest;
        assert [] + rest == rest;
      }
    }
  }

  /** Every annotation kept by the live-symbol filter names one of the ids. */
  lemma SelectedAreLive(annotations: seq<Annotation>, ids: set<string>)
    ensures forall a :: a in Select(annotations, OfSymbolIn(ids)) ==> a.symbolId in ids
  {
  }

  /** What the layer draws for page `page`. */
  function VisibleMarkers(symbols: seq<Symbol>, annotations: seq<Annotation>, page: int, scale: real): (r: seq<Marker>)
    ensures |r| <= |AnnotationsForPage(annotations, page)|
  {
    MarkersFor(symbols, AnnotationsForPage(annotations, page), scale)
  }

  /** Each marker drawn belongs to one of the given annotations, and that
      annotation's symbol is live. */
  lemma {:induction false} MarkersForLive(symbols: seq<Symbol>, annotations: seq<Annotation>, scale: real)
    ensures forall m :: m in MarkersFor(symbols, annotations, scale) ==>
              exists a :: a in annotations && a.id == m.annotationId && a.symbolId in SymbolIds(symbols)
  {
    if annotations != [] {
      MarkersForLive(symbols, annotations[1..], scale);
      var r := MarkersFor(symbols, annotations, scale);
      var rest := MarkersFor(symbols, annotations[1..], scale);
      forall m | m in r
        ensures exists a :: a in annotations && a.id == m.annotationId && a.symbolId in SymbolIds(symbols)
      {
        if m in rest {
          var a :| a in annotations[1..] && a.id == m.annotationId && a.symbolId in SymbolIds(symbols);
          assert a in annotations;
        } else {
          assert m.annotationId == annotations[0].id;
        }
      }
    }
  }

  /** The first annotation, when its symbol is live, gets the first marker. */
  lemma MarkersForCons(symbols: seq<Symbol>, annotations: seq<Annotation>, scale: real)
    requires annotations != [] && annotations[0].symbolId in SymbolIds(symbols)
    ensures MarkersFor(symbols, annotations, scale) ==
            [RenderSymbol(annotations[0], SymbolById(symbols, annotations[0].symbolId).value, scale)] +
            MarkersFor(symbols, annotations[1..], scale)
  {
  }

  /** Under referential integrity the `i`-th marker is the `i`-th
      annotation's, drawn from its own symbol. */
  lemma {:induction false} MarkersForAt(symbols: seq<Symbol>, annotations: seq<Annotation>, scale: real, i: int)
    requires forall a :: a in annotations ==> a.symbolId in SymbolIds(symbols)
    requires 0 <= i < |annotations|
    ensures i < |MarkersFor(symbols, annotations, scale)|
    ensures MarkersFor(symbols, annotations, scale)[i] ==
            RenderSymbol(annotations[i], SymbolById(symbols, annotations[i].symbolId).value, scale)
    decreases i
  {
    assert annotations[0] in annotations;
    MarkersForCons(symbols, annotations, scale);
    if i > 0 {
      var tail := annotations[1..];
      assert forall a :: a in tail ==> a in annotations;
      MarkersForAt(symbols, tail, scale, i - 1);
      assert tail[i - 1] == annotations[i];
    }
  }

  /** With referential integrity nothing is skipped: one marker per
      annotation, in order, each rendered from its own symbol. */
  lemma MarkersForComplete(symbols: seq<Symbol>, annotations: seq<Annotation>, scale: real)
    requires forall a :: a in annotations ==> a.symbolId in SymbolIds(symbols)
    ensures |MarkersFor(symbols, annotations, scale)| == |annotations|
    ensures forall i :: 0 <= i < |annotations| ==>
              MarkersFor(symbols, annotations, scale)[i] ==
              RenderSymbol(annotations[i], SymbolById(symbols, annotations[i].symbolId).value, scale)
  {
    SelectAll(annotations, OfSymbolIn(SymbolIds(symbols)));
    forall i | 0 <= i < |annotations|
      ensures MarkersFor(symbols, annotations, scale)[i] ==
              RenderSymbol(annotations[i], SymbolById(symbols, annotations[i].symbolId).value, scale)
    {
      MarkersForAt(symbols, annotations, scale, i);
    }
  }

  /** The page's markers are exactly its annotations when every annotation
      names a live symbol; otherwise there are at most that many. */
  lemma VisibleMarkersCount(symbols: seq<Symbol>, annotations: seq<Annotation>, page: int, scale: real)
    ensures |VisibleMarkers(symbols, annotations, page, scale)| <= |AnnotationsForPage(annotations, page)|
    ensures ReferencesLive(symbols, annotations) ==>
              |VisibleMarkers(symbols, annotations, page, scale)| == |AnnotationsForPage(annotations, page)|
  {
    if ReferencesLive(symbols, annotations) {
      MarkersForComplete(symbols, AnnotationsForPage(annotations, page), scale);
    }
  }

  /** Whatever the state of the references, the page shows one marker for
      each of its annotations whose symbol is live, in order, each drawn from
      that symbol. */
  lemma VisibleMarkersExact(symbols: seq<Symbol>, annotations: seq<Annotation>, page: int, scale: real)
    ensures var drawn := Select(AnnotationsForPage(annotations, page), OfSymbolIn(SymbolIds(symbols)));
            var r := VisibleMarkers(symbols, annotations, page, scale);
            |r| == |drawn| &&
            forall i :: 0 <= i < |drawn| ==>
              r[i] == RenderSymbol(drawn[i], SymbolById(symbols, drawn[i].symbolId).value, scale)
  {
    var onPage := AnnotationsForPage(annotations, page);
    var drawn := Select(onPage, OfSymbolIn(SymbolIds(symbols)));
    MarkersForSelect(symbols, onPage, scale);
    SelectedAreLive(onPage, SymbolIds(symbols));
    MarkersForComplete(symbols, drawn, scale);
    assert VisibleMarkers(symbols, annotations, page, scale) == MarkersFor(symbols, drawn, scale);
  }

  /** Every drawn marker is of an annotation on that page. */
  lemma VisibleMarkersOnPage(symbols: seq<Symbol>, annotations: seq<Annotation>, page: int, scale: real)
    ensures forall m :: m in VisibleMarkers(symbols, annotations, page, scale) ==>
              exists a :: a in annotations && a.pageNumber == page && a.id == m.annotationId &&
                          a.symbolId in SymbolIds(symbols)
  {
    var onPage := AnnotationsForPage(annotations, page);
    MarkersForLive(symbols, onPage, scale);
  }

  /** A click at offset (px, py) placed at scale `s` and drawn at scale `s2`
      is centred at (px / s * s2, py / s * s2); drawn at the same scale it
      is centred under the click again. */
  lemma PlaceThenRender(px: real, py: real, s: real, s2: real, symbol: Symbol, id: string, page: int)
    requires s != 0.0
    ensures var m := RenderSymbol(Annotation(id, symbol.id, page, px / s, py / s), symbol, s2);
            m.left + (m.size as real) / 2.0 == px / s * s2 &&
            m.top + (m.size as real) / 2.0 == py / s * s2
    ensures var m := RenderSymbol(Annotation(id, symbol.id, page, px / s, py / s), symbol, s);
            m.left + (m.size as real) / 2.0 == px &&
            m.top + (m.size as real) / 2.0 == py
  {
    assert px / s * s == px;
    assert py / s * s == py;
  }

  /** A marker stored at (100, 200) drawn at 150% is centred at (150, 300). */
  lemma RenderAtOneAndAHalf(symbol: Symbol)
    ensures var m := RenderSymbol(Annotation("a", symbol.id, 1, 100.0, 200.0), symbol, 1.5);
            m.left + (m.size as real) / 2.0 == 150.0 && m.top + (m.size as real) / 2.0 == 300.0
  {
  }

  /** The layer's dialog state: whether the confirmation is open and which
      annotation it is about. */
  class RemovalDialog {
    const store: AppStore
    var showModal: bool
    var selectedAnnotation: Option<string>

    constructor (store: AppStore)
      ensures this.store == store && !showModal && selectedAnnotation == None
    {
      this.store := store;
      showModal := false;
      selectedAnnotation := None;
    }

    /** `handleRemoveClick`: remembers the annotation and opens the dialog. */
    method HandleRemoveClick(annotationId: string)
      modifies this
      ensures selectedAnnotation == Some(annotationId) && showModal
    {
      selectedAnnotation := Some(annotationId);
      showModal := true;
    }

    /** `confirmRemoval`: removes the selected annotation when one is
        selected (an empty id counts as none, as JavaScript's truthiness
        has it), then closes the dialog and forgets the selection. */
    method ConfirmRemoval()
      modifies this, store
      ensures old(selectedAnnotation) == None || old(selectedAnnotation) == Some("") ==>
                store.State() == old(store.State())
      ensures old(selectedAnnotation) != None && old(selectedAnnotation) != Some("") ==>
                store.State() == old(store.State()).(annotations :=
                  Select(old(store.annotations), NotWithId(old(selectedAnnotation).value)))
      ensures old(store.Consistent()) ==> store.Consistent()
      ensures !showModal && selectedAnnotation == None
    {
      if selectedAnnotation != None && selectedAnnotation.value != "" {
        store.RemoveAnnotation(selectedAnnotation.value);
      }
      showModal := false;
      selectedAnnotation := None;
    }

    /** The dialog's cancel: closes it but keeps the selection. */
    method CancelRemoval()
      modifies this
      ensures !showModal && selectedAnnotation == old(selectedAnnotation)
    {
      showModal := false;
    }
  }
}

=== FILE: export.dfy ===
/** The export panel: the two CSV layouts built by `exportCSV`, the count a
    per-page view shows for one symbol on one page, and the "Total Items"
    figure. Downloads, file names and image export are not modelled. */
module Export {
  import opened Types
  import opened Text
  import opened Queries
  import opened Store

  /** A field between double quotes, pasted verbatim: an embedded `"` is not
      doubled, so a name containing one does not survive a CSV parser. */
  function Quoted(field: string): string
  {
    "\"" + field + "\""
  }

  /** The column names of the two layouts; each header is its names and a
      newline. */
  const TotalsColumns: string := "Symbol,Color,Size,Count"
  const ByPageColumns: string := "Symbol,Color,Size,Page,Count"
  const TotalsHeader: string := TotalsColumns + "\n"
  const ByPageHeader: string := ByPageColumns + "\n"

  /** `"name","color","size","count"` and a newline. */
  function TotalsRow(symbol: Symbol, count: nat): string
  {
    Quoted(symbol.name) + "," + Quoted(symbol.color) + "," + Quoted(IntToDecimal(symbol.size)) + "," +
    Quoted(NatToDecimal(count)) + "\n"
  }

  /** One totals row per symbol, in symbol-list order. */
  function TotalsRows(symbols: seq<Symbol>, annotations: seq<Annotation>): string
  {
    if symbols == [] then ""
    else TotalsRow(symbols[0], SymbolCount(annotations, symbols[0].id)) + TotalsRows(symbols[1..], annotations)
  }

  /** The totals layout of the CSV export. */
  function TotalsCsv(symbols: seq<Symbol>, annotations: seq<Annotation>): (r: string)
    ensures |r| >= |TotalsHeader| && r[..|TotalsHeader|] == TotalsHeader
  {
    TotalsHeader + TotalsRows(symbols, annotations)
  }

  /** `"name","color","size","page","count"` and a newline. */
  function PageRow(symbol: Symbol, entry: PageSymbolCount): string
  {
    Quoted(symbol.name) + "," + Quoted(symbol.color) + "," + Quoted(IntToDecimal(symbol.size)) + "," +
    Quoted(IntToDecimal(entry.page)) + "," + Quoted(IntToDecimal(entry.count)) + "\n"
  }

  /** The row of a symbol without per-page entries: it ends `"All",0`, the 0
      unquoted. */
  function FallbackRow(symbol: Symbol): (r: string)
    ensures |r| >= 8 && r[|r| - 8..] == "\"All\",0\n"
  {
    Quoted(symbol.name) + "," + Quoted(symbol.color) + "," + Quoted(IntToDecimal(symbol.size)) + ",\"All\",0\n"
  }

  /** One row per entry, in the entries' order. */
  function PageRows(symbol: Symbol, entries: seq<PageSymbolCount>): string
  {
    if entries == [] then "" else PageRow(symbol, entries[0]) + PageRows(symbol, entries[1..])
  }

  /** What one symbol contributes to the per-page layout. */
  function SymbolPageRows(symbol: Symbol, entries: seq<PageSymbolCount>): string
  {
    if |entries| == 0 then FallbackRow(symbol) else PageRows(symbol, entries)
  }

  function ByPageRows(symbols: seq<Symbol>, annotations: seq<Annotation>, totalPages: int): string
  {
    if symbols == [] then ""
    else SymbolPageRows(symbols[0], PageCounts(annotations, totalPages, symbols[0].id)) +
         ByPageRows(symbols[1..], annotations, totalPages)
  }

  /** The per-page layout of the CSV export. */
  function ByPageCsv(symbols: seq<Symbol>, annotations: seq<Annotation>, totalPages: int): (r: string)
    ensures |r| >= |ByPageHeader| && r[..|ByPageHeader|] == ByPageHeader
  {
    ByPageHeader + ByPageRows(symbols, annotations, totalPages)
  }

  /** `exportCSV`: builds the per-page layout when the per-page view is
      selected and the totals layout otherwise. */
  method ExportCsv(store: AppStore, perPage: bool) returns (csvContent: string)
    ensures perPage ==> csvContent == ByPageCsv(store.symbols, store.annotations, store.totalPages)
    ensures !perPage ==> csvContent == TotalsCsv(store.symbols, store.annotations)
  {
    if perPage {
      csvContent := ExportByPageCsv(store);
    } else {
      csvContent := ExportTotalsCsv(store);
    }
  }

  /** The per-page branch of `exportCSV`: a header, then for each symbol
      either its `"All",0` row or one row per per-page entry. */
  method ExportByPageCsv(store: AppStore) returns (csvContent: string)
    ensures csvContent == ByPageCsv(store.symbols, store.annotations, store.totalPages)
  {
    var symbols := store.symbols;
    ghost var annotations := store.annotations;
    ghost var totalPages := store.totalPages;
    csvContent := ByPageHeader;
    for i := 0 to |symbols|
      invariant csvContent == ByPageHeader + ByPageRows(symbols[..i], annotations, totalPages)
    {
      var symbol := symbols[i];
      csvContent := AppendSymbolRows(store, csvContent, symbol);
      ByPageRowsSnoc(symbols, i, annotations, totalPages);
      Assoc(ByPageHeader, ByPageRows(symbols[..i], annotations, totalPages), SymbolPageRows(symbol, PageCounts(annotations, totalPages, symbol.id)));
    }
    assert symbols[..|symbols|] == symbols;
  }

  /** The body of the per-page branch for one symbol: its `"All",0` row
      when it has no per-page entries, its entry rows otherwise. */
  method AppendSymbolRows(store: AppStore, csvContent: string, symbol: Symbol) returns (r: string)
    ensures r == csvContent + SymbolPageRows(symbol, PageCounts(store.annotations, store.totalPages, symbol.id))
  {
    var pageCounts := store.GetSymbolPageCounts(symbol.id);
    if |pageCounts| == 0 {
      r := csvContent + FallbackRow(symbol);
    } else {
      r := AppendPageRows(csvContent, symbol, pageCounts);
    }
  }

  /** The inner loop of the per-page branch: one row per entry appended to
      `csvContent`. */
  method AppendPageRows(csvContent: string, symbol: Symbol, entries: seq<PageSymbolCount>) returns (r: string)
    ensures r == csvContent + PageRows(symbol, entries)
  {
    r := csvContent;
    for j := 0 to |entries|
      invariant r == csvContent + PageRows(symbol, entries[..j])
    {
      PageRowsSnoc(symbol, entries, j);
      Assoc(csvContent, PageRows(symbol, entries[..j]), PageRow(symbol, entries[j]));
      r := r + PageRow(symbol, entries[j]);
    }
    assert entries[..|entries|] == entries;
  }

  /** The totals branch of `exportCSV`: a header, then one row per symbol. */
  method ExportTotalsCsv(store: AppStore) returns (csvContent: string)
    ensures csvContent == TotalsCsv(store.symbols, store.annotations)
  {
    var symbols := store.symbols;
    var annotations := store.annotations;
    csvContent := TotalsHeader;
    for i := 0 to |symbols|
      invariant csvContent == TotalsHeader + TotalsRows(symbols[..i], annotations)
    {
      var symbol := symbols[i];
      var count := SymbolCount(annotations, symbol.id);
      TotalsRowsSnoc(symbols, i, annotations);
      Assoc(TotalsHeader, TotalsRows(symbols[..i], annotations), TotalsRow(symbol, count));
      csvContent := csvContent + TotalsRow(symbol, count);
    }
    assert symbols[..|symbols|] == symbols;
  }

  lemma Assoc(a: string, b: string, c: string)
    ensures a + b + c == a + (b + c)
  {
  }

  /** Growing the exported prefix of the symbol list by one symbol adds that
      symbol's totals row. */
  lemma TotalsRowsSnoc(symbols: seq<Symbol>, i: nat, annotations: seq<Annotation>)
    requires i < |symbols|
    ensures TotalsRows(symbols[..i + 1], annotations) ==
            TotalsRows(symbols[..i], annotations) + TotalsRow(symbols[i], SymbolCount(annotations, symbols[i].id))
  {
    assert symbols[..i + 1] == symbols[..i] + [symbols[i]];
    TotalsRowsAppend(symbols[..i], [symbols[i]], annotations);
    assert [symbols[i]][1..] == [];
  }

  lemma PageRowsSnoc(symbol: Symbol, entries: seq<PageSymbolCount>, j: nat)
    requires j < |entries|
    ensures PageRows(symbol, entries[..j + 1]) == PageRows(symbol, entries[..j]) + PageRow(symbol, entries[j])
  {
    assert entries[..j + 1] == entries[..j] + [entries[j]];
    PageRowsAppend(symbol, entries[..j], [entries[j]]);
    assert [entries[j]][1..] == [];
  }

  lemma ByPageRowsSnoc(symbols: seq<Symbol>, i: nat, annotations: seq<Annotation>, totalPages: int)
    requires i < |symbols|
    ensures ByPageRows(symbols[..i + 1], annotations, totalPages) ==
            ByPageRows(symbols[..i], annotations, totalPages) +
            SymbolPageRows(symbols[i], PageCounts(annotations, totalPages, symbols[i].id))
  {
    assert symbols[..i + 1] == symbols[..i] + [symbols[i]];
    ByPageRowsAppend(symbols[..i], [symbols[i]], annotations, totalPages);
    assert [symbols[i]][1..] == [];
  }

  // ---- the layouts' structure ------------------------------------------------

  /** Totals rows follow the symbol list: rows of a concatenation are the
      concatenated rows. */
  lemma {:induction false} TotalsRowsAppend(a: seq<Symbol>, b: seq<Symbol>, annotations: seq<Annotation>)
    ensures TotalsRows(a + b, annotations) == TotalsRows(a, annotations) + TotalsRows(b, annotations)
  {
    if a == [] {
      assert a + b == b;
    } else {
      assert (a + b)[0] == a[0] && (a + b)[1..] == a[1..] + b;
      TotalsRowsAppend(a[1..], b, annotations);
    }
  }

  lemma {:induction false} PageRowsAppend(symbol: Symbol, a: seq<PageSymbolCount>, b: seq<PageSymbolCount>)
    ensures PageRows(symbol, a + b) == PageRows(symbol, a) + PageRows(symbol, b)
  {
    if a == [] {
      assert a + b == b;
    } else {
      assert (a + b)[0] == a[0] && (a + b)[1..] == a[1..] + b;
      PageRowsAppend(symbol, a[1..], b);
    }
  }

  /** Per-page rows follow the symbol list. */
  lemma {:induction false} ByPageRowsAppend(a: seq<Symbol>, b: seq<Symbol>, annotations: seq<Annotation>, totalPages: int)
    ensures ByPageRows(a + b, annotations, totalPages) == ByPageRows(a, annotations, totalPages) + ByPageRows(b, annotations, totalPages)
  {
    if a == [] {
      assert a + b == b;
    } else {
      assert (a + b)[0] == a[0] && (a + b)[1..] == a[1..] + b;
      ByPageRowsAppend(a[1..], b, annotations, totalPages);
    }
  }

  /** No symbol's name or color contains a line break. */
  predicate NoLineBreaks(symbols: seq<Symbol>)
  {
    forall s :: s in symbols ==> '\n' !in s.name && '\n' !in s.color
  }

  /** A string without line breaks followed by one has exactly one. */
  lemma OneLine(body: string)
    requires '\n' !in body
    ensures Occurrences(body + "\n", '\n') == 1
  {
    OccurrencesAbsent(body, '\n');
    OccurrencesAppend(body, "\n", '\n');
  }

  /** Each row is one line when the symbol's name and color hold no line
      break. */
  lemma RowLineBreaks(symbol: Symbol, count: nat, entry: PageSymbolCount)
    requires '\n' !in symbol.name && '\n' !in symbol.color
    ensures Occurrences(TotalsRow(symbol, count), '\n') == 1
    ensures Occurrences(PageRow(symbol, entry), '\n') == 1
    ensures Occurrences(FallbackRow(symbol), '\n') == 1
  {
    var size := IntToDecimal(symbol.size);
    var lead := Quoted(symbol.name) + "," + Quoted(symbol.color) + "," + Quoted(size) + ",";
    assert '\n' !in size;
    assert '\n' !in NatToDecimal(count);
    assert '\n' !in IntToDecimal(entry.page);
    assert '\n' !in IntToDecimal(entry.count);
    assert TotalsRow(symbol, count) == lead + Quoted(NatToDecimal(count)) + "\n";
    OneLine(lead + Quoted(NatToDecimal(count)));
    assert PageRow(symbol, entry) == lead + Quoted(IntToDecimal(entry.page)) + "," + Quoted(IntToDecimal(entry.count)) + "\n";
    OneLine(lead + Quoted(IntToDecimal(entry.page)) + "," + Quoted(IntToDecimal(entry.count)));
    assert FallbackRow(symbol) == lead + "\"All\",0" + "\n";
    OneLine(lead + "\"All\",0");
  }

  /** Each header is one line. */
  lemma HeaderLines()
    ensures Occurrences(TotalsHeader, '\n') == 1
    ensures Occurrences(ByPageHeader, '\n') == 1
  {
    OneLine(TotalsColumns);
    OneLine(ByPageColumns);
  }

  function ByPageLines(symbols: seq<Symbol>, annotations: seq<Annotation>, totalPages: int): nat
  {
    if symbols == [] then 0
    else
      var n := |PageCounts(annotations, totalPages, symbols[0].id)|;
      (if n == 0 then 1 else n) + ByPageLines(symbols[1..], annotations, totalPages)
  }

  /** The totals layout has a header line and one line per symbol. */
  lemma {:induction false} TotalsCsvLines(symbols: seq<Symbol>, annotations: seq<Annotation>)
    requires NoLineBreaks(symbols)
    ensures Occurrences(TotalsCsv(symbols, annotations), '\n') == 1 + |symbols|
  {
    OccurrencesAppend(TotalsHeader, TotalsRows(symbols, annotations), '\n');
    HeaderLines();
    TotalsRowsLines(symbols, annotations);
  }

  lemma {:induction false} TotalsRowsLines(symbols: seq<Symbol>, annotations: seq<Annotation>)
    requires NoLineBreaks(symbols)
    ensures Occurrences(TotalsRows(symbols, annotations), '\n') == |symbols|
  {
    if symbols != [] {
      var s := symbols[0];
      RowLineBreaks(s, SymbolCount(annotations, s.id), PageSymbolCount(0, 0));
      TotalsRowsLines(symbols[1..], annotations);
      OccurrencesAppend(TotalsRow(s, SymbolCount(annotations, s.id)), TotalsRows(symbols[1..], annotations), '\n');
    }
  }

  lemma {:induction false} PageRowsLines(symbol: Symbol, entries: seq<PageSymbolCount>)
    requires '\n' !in symbol.name && '\n' !in symbol.color
    ensures Occurrences(PageRows(symbol, entries), '\n') == |entries|
  {
    if entries != [] {
      RowLineBreaks(symbol, 0, entries[0]);
      PageRowsLines(symbol, entries[1..]);
      OccurrencesAppend(PageRow(symbol, entries[0]), PageRows(symbol, entries[1..]), '\n');
    }
  }

  /** The per-page layout has a header line and, per symbol, one line per
      per-page entry or the single fallback line. */
  lemma {:induction false} ByPageCsvLines(symbols: seq<Symbol>, annotations: seq<Annotation>, totalPages: int)
    requires NoLineBreaks(symbols)
    ensures Occurrences(ByPageCsv(symbols, annotations, totalPages), '\n') == 1 + ByPageLines(symbols, annotations, totalPages)
  {
    OccurrencesAppend(ByPageHeader, ByPageRows(symbols, annotations, totalPages), '\n');
    HeaderLines();
    ByPageRowsLines(symbols, annotations, totalPages);
  }

  lemma {:induction false} ByPageRowsLines(symbols: seq<Symbol>, annotations: seq<Annotation>, totalPages: int)
    requires NoLineBreaks(symbols)
    ensures Occurrences(ByPageRows(symbols, annotations, totalPages), '\n') == ByPageLines(symbols, annotations, totalPages)
  {
    if symbols != [] {
      var s := symbols[0];
      var entries := PageCounts(annotations, totalPages, s.id);
      RowLineBreaks(s, 0, PageSymbolCount(0, 0));
      PageRowsLines(s, entries);
      ByPageRowsLines(symbols[1..], annotations, totalPages);
      OccurrencesAppend(SymbolPageRows(s, entries), ByPageRows(symbols[1..], annotations, totalPages), '\n');
    }
  }

  /** A symbol gets the `"All",0` row exactly when none of its annotations
      lies on a page in 1..totalPages. */
  lemma FallbackExactlyWhenNoPageInRange(annotations: seq<Annotation>, totalPages: int, id: string)
    ensures |PageCounts(annotations, totalPages, id)| == 0 <==>
            |Select(annotations, OfSymbolInPages(id, 1, totalPages))| == 0
  {
    var entries := PageCounts(annotations, totalPages, id);
    SumPageCountsFrom(annotations, id, 1, totalPages);
    PageCountsFromEntries(annotations, id, 1, totalPages);
    if entries != [] {
      SumPositive(entries);
    }
  }

  lemma {:induction false} SumPositive(entries: seq<PageSymbolCount>)
    requires entries != []
    requires forall i :: 0 <= i < |entries| ==> entries[i].count > 0
    ensures SumCounts(entries) > 0
  {
    if |entries| > 1 {
      SumPositive(entries[1..]);
    }
  }

  // ---- the per-page view -------------------------------------------------------

  /** `pageCounts.find(pc => pc.page === page)?.count || 0`. */
  function PageCountOf(entries: seq<PageSymbolCount>, page: int): (r: int)
    ensures (forall i :: 0 <= i < |entries| ==> entries[i].page != page) ==> r == 0
    ensures forall i :: (0 <= i < |entries| && entries[i].page == page &&
                         forall j :: 0 <= j < i ==> entries[j].page != page) ==> r == entries[i].count
  {
    if entries == [] then 0
    else if entries[0].page == page then entries[0].count
    else
      var r := PageCountOf(entries[1..], page);
      assert forall i :: 1 <= i < |entries| ==> entries[i] == entries[1..][i - 1];
      r
  }

  /** The view's lookup agrees with the store: on a page in 1..totalPages it
      shows `getSymbolCountByPage`, elsewhere 0. */
  lemma ViewCountMatchesStore(annotations: seq<Annotation>, totalPages: int, id: string, page: int)
    ensures PageCountOf(PageCounts(annotations, totalPages, id), page) ==
            if 1 <= page <= totalPages then SymbolCountByPage(annotations, id, page) else 0
  {
    var entries := PageCounts(annotations, totalPages, id);
    PageCountsFromEntries(annotations, id, 1, totalPages);
    PageCountsFromPages(annotations, id, 1, totalPages);
    if page in EntryPages(entries) {
      var e :| e in entries && e.page == page;
      var i :| 0 <= i < |entries| && entries[i] == e;
      assert forall j :: 0 <= j < i ==> entries[j].page < entries[i].page;
    } else {
      assert forall i :: 0 <= i < |entries| ==> entries[i] in entries && entries[i].page != page;
    }
  }

  /** One line of a page's section in the per-page view. */
  datatype ViewRow = ViewRow(symbol: Symbol, count: int)

  /** The rows a page's section shows: the symbols, in order, whose count on
      that page is not 0. */
  function PageViewRows(symbols: seq<Symbol>, annotations: seq<Annotation>, totalPages: int, page: int): (r: seq<ViewRow>)
    ensures |r| <= |symbols|
    ensures forall row :: row in r ==> row.symbol in symbols && 1 <= page <= totalPages &&
                                       0 < row.count == SymbolCountByPage(annotations, row.symbol.id, page)
    ensures forall s :: s in symbols && 1 <= page <= totalPages && SymbolCountByPage(annotations, s.id, page) > 0 ==>
                        ViewRow(s, SymbolCountByPage(annotations, s.id, page)) in r
  {
    if symbols == [] then []
    else
      var s := symbols[0];
      var count := PageCountOf(PageCounts(annotations, totalPages, s.id), page);
      ViewCountMatchesStore(annotations, totalPages, s.id, page);
      (if count == 0 then [] else [ViewRow(s, count)]) + PageViewRows(symbols[1..], annotations, totalPages, page)
  }

  /** The rows follow the symbol list: the rows for `a + b` are those for
      `a` followed by those for `b`, so each symbol's row keeps its place. */
  lemma {:induction false} PageViewRowsAppend(a: seq<Symbol>, b: seq<Symbol>, annotations: seq<Annotation>,
                                             totalPages: int, page: int)
    ensures PageViewRows(a + b, annotations, totalPages, page) ==
            PageViewRows(a, annotations, totalPages, page) + PageViewRows(b, annotations, totalPages, page)
  {
    if a == [] {
      assert a + b == b;
    } else {
      assert (a + b)[0] == a[0];
      assert (a + b)[1..] == a[1..] + b;
      PageViewRowsAppend(a[1..], b, annotations, totalPages, page);
    }
  }

  // ---- the summary panel ------------------------------------------------------

  /** The "Total Items" figure: the sum of `getSymbolCount` over the symbol
      list, as `symbols.reduce((t, s) => t + getSymbolCount(s.id), 0)`. */
  function TotalItems(symbols: seq<Symbol>, annotations: seq<Annotation>): nat
  {
    if symbols == [] then 0 else SymbolCount(annotations, symbols[0].id) + TotalItems(symbols[1..], annotations)
  }

  /** With distinct ids, the total counts each annotation of a listed symbol
      exactly once. */
  lemma {:induction false} TotalItemsCountsListed(symbols: seq<Symbol>, annotations: seq<Annotation>)
    requires UniqueIds(symbols)
    ensures TotalItems(symbols, annotations) == |Select(annotations, OfSymbolIn(SymbolIds(symbols)))|
  {
    if symbols == [] {
      assert SymbolIds(symbols) == {};
      SelectNone(annotations, OfSymbolIn({}));
    } else {
      var rest := symbols[1..];
      TotalItemsCountsListed(rest, annotations);
      assert SymbolIds(symbols) == {symbols[0].id} + SymbolIds(rest) by {
        assert symbols == [symbols[0]] + rest;
      }
      assert symbols[0].id !in SymbolIds(rest) by {
        forall s | s in rest ensures s.id != symbols[0].id {
          var j :| 0 <= j < |rest| && rest[j] == s;
          assert symbols[j + 1] == s;
        }
      }
      SelectSplit(annotations, OfSymbolIn(SymbolIds(symbols)), OfSymbol(symbols[0].id), OfSymbolIn(SymbolIds(rest)));
    }
  }

  /** With distinct symbol ids, "Total Items" never exceeds the number of
      annotations, and equals it when every annotation references a live
      symbol. */
  lemma TotalItemsBound(symbols: seq<Symbol>, annotations: seq<Annotation>)
    requires UniqueIds(symbols)
    ensures TotalItems(symbols, annotations) <= |annotations|
    ensures ReferencesLive(symbols, annotations) ==> TotalItems(symbols, annotations) == |annotations|
  {
    TotalItemsCountsListed(symbols, annotations);
    if ReferencesLive(symbols, annotations) {
      SelectAll(annotations, OfSymbolIn(SymbolIds(symbols)));
    }
  }

}

=== FILE: queries.dfy ===
/** The read-only side of the takeoff store: the order-preserving filters over
    the annotation list, the symbol lookup, and the counts derived from them.
    These are plain functions of the store's lists; the class in module Store
    applies them to its fields. */
module Queries {
  import opened Types

  /** The conditions the store filters annotations by. */
  datatype Criterion =
    | OnPage(page: int)                                   // getAnnotationsForPage
    | OfSymbol(symbolId: string)                          // getSymbolCount
    | OfSymbolOnPage(symbolId: string, page: int)         // getSymbolCountByPage
    | OfSymbolInPages(symbolId: string, lo: int, hi: int) // pages lo..hi of one symbol
    | NotOfSymbol(symbolId: string)                       // the cascade of removeSymbol
    | NotWithId(id: string)                               // removeAnnotation
    | OfSymbolIn(ids: set<string>)                        // any of a set of symbols

  predicate Matches(a: Annotation, c: Criterion)
  {
    match c
    case OnPage(p) => a.pageNumber == p
    case OfSymbol(id) => a.symbolId == id
    case OfSymbolOnPage(id, p) => a.symbolId == id && a.pageNumber == p
    case OfSymbolInPages(id, lo, hi) => a.symbolId == id && lo <= a.pageNumber <= hi
    case NotOfSymbol(id) => a.symbolId != id
    case NotWithId(id) => a.id != id
    case OfSymbolIn(ids) => a.symbolId in ids
  }

  /** `annotations.filter(a => Matches(a, c))`: the matching annotations, in
      their original order. */
  function Select(annotations: seq<Annotation>, c: Criterion): (r: seq<Annotation>)
    ensures |r| <= |annotations|
    ensures forall i :: 0 <= i < |r| ==> Matches(r[i], c)
    ensures forall a :: a in r <==> a in annotations && Matches(a, c)
  {
    if annotations == [] then []
    else (if Matches(annotations[0], c) then [annotations[0]] else []) + Select(annotations[1..], c)
  }

  /** Filtering distributes over concatenation: survivors keep their relative
      order, and what is appended is filtered on its own. */
  lemma {:induction false} SelectAppend(a: seq<Annotation>, b: seq<Annotation>, c: Criterion)
    ensures Select(a + b, c) == Select(a, c) + Select(b, c)
  {
    if a == [] {
      assert a + b == b;
    } else {
      assert (a + b)[0] == a[0];
      assert (a + b)[1..] == a[1..] + b;
      SelectAppend(a[1..], b, c);
    }
  }

  /** A filter that every element passes returns the list unchanged. */
  lemma {:induction false} SelectAll(annotations: seq<Annotation>, c: Criterion)
    requires forall a :: a in annotations ==> Matches(a, c)
    ensures Select(annotations, c) == annotations
  {
    if annotations != [] {
      SelectAll(annotations[1..], c);
    }
  }

  /** A filter that no element passes returns the empty list. */
  lemma {:induction false} SelectNone(annotations: seq<Annotation>, c: Criterion)
    requires forall a :: a in annotations ==> !Matches(a, c)
    ensures Select(annotations, c) == []
  {
    if annotations != [] {
      SelectNone(annotations[1..], c);
    }
  }

  /** When passing `c2` implies passing `c1`, the `c2` filter is no longer. */
  lemma {:induction false} SelectMonotone(annotations: seq<Annotation>, c1: Criterion, c2: Criterion)
    requires forall a :: Matches(a, c2) ==> Matches(a, c1)
    ensures |Select(annotations, c2)| <= |Select(annotations, c1)|
  {
    if annotations != [] {
      SelectMonotone(annotations[1..], c1, c2);
    }
  }

  /** When `c` is exactly "passes `c1` or `c2`" and no element passes both,
      the `c` filter is as long as the other two together. */
  lemma {:induction false} SelectSplit(annotations: seq<Annotation>, c: Criterion, c1: Criterion, c2: Criterion)
    requires forall a :: Matches(a, c) <==> Matches(a, c1) || Matches(a, c2)
    requires forall a :: !(Matches(a, c1) && Matches(a, c2))
    ensures |Select(annotations, c)| == |Select(annotations, c1)| + |Select(annotations, c2)|
  {
    if annotations != [] {
      SelectSplit(annotations[1..], c, c1, c2);
    }
  }

  // ---- the store's queries --------------------------------------------------

  /** `getAnnotationsForPage(p)`. */
  function AnnotationsForPage(annotations: seq<Annotation>, page: int): (r: seq<Annotation>)
    ensures forall a :: a in r <==> a in annotations && a.pageNumber == page
  {
    Select(annotations, OnPage(page))
  }

  /** `getSymbolCount(id)`: how many annotations reference the symbol. */
  function SymbolCount(annotations: seq<Annotation>, id: string): (n: nat)
    ensures n <= |annotations|
  {
    |Select(annotations, OfSymbol(id))|
  }

  /** `getSymbolCountByPage(id, p)`. */
  function SymbolCountByPage(annotations: seq<Annotation>, id: string, page: int): (n: nat)
    ensures n <= |annotations|
  {
    |Select(annotations, OfSymbolOnPage(id, page))|
  }

  /** `getSymbolById(id)`: the first symbol with that id, or none. */
  function SymbolById(symbols: seq<Symbol>, id: string): (r: Option<Symbol>)
    ensures r.None? <==> id !in SymbolIds(symbols)
    ensures r.Some? ==> r.value.id == id && exists k :: 0 <= k < |symbols| && symbols[k] == r.value &&
                                                     forall j :: 0 <= j < k ==> symbols[j].id != id
  {
    if symbols == [] then None
    else if symbols[0].id == id then Some(symbols[0])
    else
      var r := SymbolById(symbols[1..], id);
      if r.Some? then
        var k :| 0 <= k < |symbols[1..]| && symbols[1..][k] == r.value &&
                 forall j :: 0 <= j < k ==> symbols[1..][j].id != id;
        assert symbols[k + 1] == r.value;
        r
      else
        r
  }

  /** The symbols that survive `removeSymbol(id)`, in their original order. */
  function SymbolsWithout(symbols: seq<Symbol>, id: string): (r: seq<Symbol>)
    ensures |r| <= |symbols|
    ensures forall s :: s in r <==> s in symbols && s.id != id
    ensures SymbolIds(r) == SymbolIds(symbols) - {id}
  {
    if symbols == [] then []
    else (if symbols[0].id != id then [symbols[0]] else []) + SymbolsWithout(symbols[1..], id)
  }

  /** Removal distributes over concatenation, so the survivors keep their
      relative order and each copy of a symbol is kept or dropped on its own. */
  lemma {:induction false} SymbolsWithoutAppend(a: seq<Symbol>, b: seq<Symbol>, id: string)
    ensures SymbolsWithout(a + b, id) == SymbolsWithout(a, id) + SymbolsWithout(b, id)
  {
    if a == [] {
      assert a + b == b;
    } else {
      assert (a + b)[0] == a[0];
      assert (a + b)[1..] == a[1..] + b;
      SymbolsWithoutAppend(a[1..], b, id);
    }
  }

  /** The one-element case: a symbol survives exactly when its id is not the
      removed one. Together with `SymbolsWithoutAppend` this fixes the
      filter's behaviour element by element, as `filter` decides each
      element on its own. */
  lemma SymbolsWithoutSingle(s: Symbol, id: string)
    ensures SymbolsWithout([s], id) == if s.id != id then [s] else []
  {
    assert [s][1..] == [];
  }

  /** One symbol's non-empty per-page counts for pages `lo..hi`, ascending:
      the entries the loop of `getSymbolPageCounts` pushes. */
  function PageCountsFrom(annotations: seq<Annotation>, id: string, lo: int, hi: int): seq<PageSymbolCount>
    decreases hi - lo
  {
    if lo > hi then []
    else
      var count := SymbolCountByPage(annotations, id, lo);
      (if count > 0 then [PageSymbolCount(lo, count)] else []) + PageCountsFrom(annotations, id, lo + 1, hi)
  }

  /** The pages a list of per-page entries mentions. */
  function EntryPages(entries: seq<PageSymbolCount>): set<int>
  {
    set e | e in entries :: e.page
  }

  /** Every entry names a page in `lo..hi`. */
  predicate EntriesInRange(entries: seq<PageSymbolCount>, lo: int, hi: int)
  {
    forall i :: 0 <= i < |entries| ==> lo <= entries[i].page <= hi
  }

  /** Every entry carries the non-zero count of its page. */
  predicate EntriesCountPages(entries: seq<PageSymbolCount>, annotations: seq<Annotation>, id: string)
  {
    forall i :: 0 <= i < |entries| ==> 0 < entries[i].count == SymbolCountByPage(annotations, id, entries[i].page)
  }

  predicate EntriesAscending(entries: seq<PageSymbolCount>)
  {
    forall i, j :: 0 <= i < j < |entries| ==> entries[i].page < entries[j].page
  }

  /** Proof step for the three lemmas below: one unfolding of
      `PageCountsFrom` with the empty head dropped. */
  lemma PageCountsFromUnfold(annotations: seq<Annotation>, id: string, lo: int, hi: int)
    requires lo <= hi
    ensures var rest := PageCountsFrom(annotations, id, lo + 1, hi);
            var count := SymbolCountByPage(annotations, id, lo);
            PageCountsFrom(annotations, id, lo, hi) == if count > 0 then [PageSymbolCount(lo, count)] + rest else rest
  {
    var rest := PageCountsFrom(annotations, id, lo + 1, hi);
    assert [] + rest == rest;
  }

  /** Every entry for `lo..hi` names a page in that range. */
  lemma {:induction false} PageCountsFromInRange(annotations: seq<Annotation>, id: string, lo: int, hi: int)
    ensures EntriesInRange(PageCountsFrom(annotations, id, lo, hi), lo, hi)
    decreases hi - lo
  {
    if lo <= hi {
      PageCountsFromInRange(annotations, id, lo + 1, hi);
      PageCountsFromUnfold(annotations, id, lo, hi);
    }
  }

  /** Every entry for `lo..hi` carries the non-zero count of its page. */
  lemma {:induction false} PageCountsFromCounts(annotations: seq<Annotation>, id: string, lo: int, hi: int)
    ensures EntriesCountPages(PageCountsFrom(annotations, id, lo, hi), annotations, id)
    decreases hi - lo
  {
    if lo <= hi {
      PageCountsFromCounts(annotations, id, lo + 1, hi);
      PageCountsFromUnfold(annotations, id, lo, hi);
      var rest := PageCountsFrom(annotations, id, lo + 1, hi);
      var count := SymbolCountByPage(annotations, id, lo);
      if count > 0 {
        var r := [PageSymbolCount(lo, count)] + rest;
        forall i | 0 <= i < |r|
          ensures 0 < r[i].count == SymbolCountByPage(annotations, id, r[i].page)
        {
          if i > 0 {
            assert r[i] == rest[i - 1];
          }
        }
      }
    }
  }

  /** The pages of the entries for `lo..hi` strictly ascend. */
  lemma {:induction false} PageCountsFromAscending(annotations: seq<Annotation>, id: string, lo: int, hi: int)
    ensures EntriesAscending(PageCountsFrom(annotations, id, lo, hi))
    decreases hi - lo
  {
    if lo <= hi {
      PageCountsFromAscending(annotations, id, lo + 1, hi);
      PageCountsFromInRange(annotations, id, lo + 1, hi);
      PageCountsFromUnfold(annotations, id, lo, hi);
      var rest := PageCountsFrom(annotations, id, lo + 1, hi);
      var r := PageCountsFrom(annotations, id, lo, hi);
      if SymbolCountByPage(annotations, id, lo) > 0 {
        assert forall i :: 1 <= i < |r| ==> r[i] == rest[i - 1];
      }
    }
  }

  /** Every entry for `lo..hi` names a page in that range, carries a non-zero
      count equal to `getSymbolCountByPage`, and the pages strictly ascend. */
  lemma PageCountsFromEntries(annotations: seq<Annotation>, id: string, lo: int, hi: int)
    ensures EntriesInRange(PageCountsFrom(annotations, id, lo, hi), lo, hi)
    ensures EntriesCountPages(PageCountsFrom(annotations, id, lo, hi), annotations, id)
    ensures EntriesAscending(PageCountsFrom(annotations, id, lo, hi))
  {
    PageCountsFromInRange(annotations, id, lo, hi);
    PageCountsFromCounts(annotations, id, lo, hi);
    PageCountsFromAscending(annotations, id, lo, hi);
  }

  /** The entries for `lo..hi` mention exactly the pages of that range on
      which the symbol has at least one annotation. */
  lemma {:induction false} PageCountsFromPages(annotations: seq<Annotation>, id: string, lo: int, hi: int)
    ensures forall p :: p in EntryPages(PageCountsFrom(annotations, id, lo, hi)) <==>
                        lo <= p <= hi && SymbolCountByPage(annotations, id, p) > 0
    decreases hi - lo
  {
    if lo <= hi {
      PageCountsFromPages(annotations, id, lo + 1, hi);
      var count := SymbolCountByPage(annotations, id, lo);
      var head := if count > 0 then [PageSymbolCount(lo, count)] else [];
      var rest := PageCountsFrom(annotations, id, lo + 1, hi);
      assert EntryPages(head + rest) == EntryPages(head) + EntryPages(rest);
    }
  }

  /** `getSymbolPageCounts(id)`: pages `1..totalPages` with a non-zero count. */
  function PageCounts(annotations: seq<Annotation>, totalPages: int, id: string): (r: seq<PageSymbolCount>)
    ensures EntriesInRange(r, 1, totalPages) && EntriesAscending(r)
  {
    PageCountsFromEntries(annotations, id, 1, totalPages);
    PageCountsFrom(annotations, id, 1, totalPages)
  }

  /** The result of `getSymbolPageCounts(id)`: pages within 1..totalPages,
      strictly ascending, exactly those on which the symbol has annotations,
      each with its non-zero `getSymbolCountByPage`. */
  lemma PageCountsProperties(annotations: seq<Annotation>, totalPages: int, id: string)
    ensures EntriesInRange(PageCounts(annotations, totalPages, id), 1, totalPages)
    ensures EntriesAscending(PageCounts(annotations, totalPages, id))
    ensures EntriesCountPages(PageCounts(annotations, totalPages, id), annotations, id)
    ensures forall p :: p in EntryPages(PageCounts(annotations, totalPages, id)) <==>
                        1 <= p <= totalPages && SymbolCountByPage(annotations, id, p) > 0
  {
    PageCountsFromEntries(annotations, id, 1, totalPages);
    PageCountsFromPages(annotations, id, 1, totalPages);
  }

  /** The distinct page numbers that carry at least one annotation. */
  function PageSet(annotations: seq<Annotation>): set<int>
  {
    set a | a in annotations :: a.pageNumber
  }

  predicate StrictlyAscending(s: seq<int>)
  {
    forall i, j :: 0 <= i < j < |s| ==> s[i] < s[j]
  }

  /** The sum of the counts of a list of per-page entries. */
  function SumCounts(entries: seq<PageSymbolCount>): int
  {
    if entries == [] then 0 else entries[0].count + SumCounts(entries[1..])
  }

  // ---- properties -----------------------------------------------------------

  /** A symbol's count on one page never exceeds its total count. */
  lemma CountByPageAtMostTotal(annotations: seq<Annotation>, id: string, page: int)
    ensures SymbolCountByPage(annotations, id, page) <= SymbolCount(annotations, id)
  {
    SelectMonotone(annotations, OfSymbol(id), OfSymbolOnPage(id, page));
  }

  /** The annotations of one symbol on pages `lo..hi` split into those on page
      `lo` and those on pages `lo+1..hi`. */
  lemma PagesRangeSplit(annotations: seq<Annotation>, id: string, lo: int, hi: int)
    requires lo <= hi
    ensures |Select(annotations, OfSymbolInPages(id, lo, hi))| ==
            SymbolCountByPage(annotations, id, lo) + |Select(annotations, OfSymbolInPages(id, lo + 1, hi))|
  {
    SelectSplit(annotations, OfSymbolInPages(id, lo, hi), OfSymbolOnPage(id, lo), OfSymbolInPages(id, lo + 1, hi));
  }

  /** The per-page entries for `lo..hi` add up to the symbol's annotations on
      those pages. */
  lemma {:induction false} SumPageCountsFrom(annotations: seq<Annotation>, id: string, lo: int, hi: int)
    ensures SumCounts(PageCountsFrom(annotations, id, lo, hi)) == |Select(annotations, OfSymbolInPages(id, lo, hi))|
    decreases hi - lo
  {
    if lo > hi {
      assert PageCountsFrom(annotations, id, lo, hi) == [];
      SelectNone(annotations, OfSymbolInPages(id, lo, hi));
    } else {
      var count := SymbolCountByPage(annotations, id, lo);
      var rest := PageCountsFrom(annotations, id, lo + 1, hi);
      SumPageCountsFrom(annotations, id, lo + 1, hi);
      PagesRangeSplit(annotations, id, lo, hi);
      if count > 0 {
        var r := [PageSymbolCount(lo, count)] + rest;
        assert r == PageCountsFrom(annotations, id, lo, hi);
        assert r[1..] == rest;
        assert SumCounts(r) == count + SumCounts(rest);
      } else {
        assert rest == PageCountsFrom(annotations, id, lo, hi);
      }
    }
  }

  /** Every annotation of symbol `id` lies on a page in `lo..hi`. */
  predicate AllOnPages(annotations: seq<Annotation>, id: string, lo: int, hi: int)
  {
    forall a :: a in annotations && a.symbolId == id ==> lo <= a.pageNumber <= hi
  }

  /** The per-page counts add up to at most the symbol's total, and exactly to
      it when all of that symbol's annotations lie on pages 1..totalPages. */
  lemma PageCountsSum(annotations: seq<Annotation>, totalPages: int, id: string)
    ensures SumCounts(PageCounts(annotations, totalPages, id)) <= SymbolCount(annotations, id)
    ensures AllOnPages(annotations, id, 1, totalPages) ==>
            SumCounts(PageCounts(annotations, totalPages, id)) == SymbolCount(annotations, id)
  {
    var inRange := OfSymbolInPages(id, 1, totalPages);
    SumPageCountsFrom(annotations, id, 1, totalPages);
    SelectMonotone(annotations, OfSymbol(id), inRange);
    if AllOnPages(annotations, id, 1, totalPages) {
      assert Select(annotations, OfSymbol(id)) == Select(annotations, inRange) by {
        SelectNested(annotations, OfSymbol(id), inRange);
        SelectAll(Select(annotations, OfSymbol(id)), inRange);
      }
    }
  }

  /** Two strictly ascending lists with the same elements are the same list,
      so "ascending, duplicate-free, exactly these pages" fixes the result of
      `getPagesWithSymbols`. */
  lemma {:induction false} AscendingUnique(a: seq<int>, b: seq<int>)
    requires StrictlyAscending(a) && StrictlyAscending(b)
    requires forall x :: x in a <==> x in b
    ensures a == b
  {
    if a != [] {
      assert a[0] in a;
    }
    if b != [] {
      assert b[0] in b;
    }
    if a != [] && b != [] {
      assert a[0] == b[0] by {
        assert a[0] in a && b[0] in b;
        var i :| 0 <= i < |a| && a[i] == b[0];
        var j :| 0 <= j < |b| && b[j] == a[0];
        assert a[0] <= a[i] && b[0] <= b[j];
      }
      forall x ensures x in a[1..] <==> x in b[1..] {
        if x in a[1..] {
          assert x != a[0] && x in b;
        }
        if x in b[1..] {
          assert x != b[0] && x in a;
        }
      }
      AscendingUnique(a[1..], b[1..]);
      assert a == [a[0]] + a[1..] && b == [b[0]] + b[1..];
    }
  }

  /** A filter and its complement together keep every annotation once. */
  lemma {:induction false} SelectComplement(annotations: seq<Annotation>, c1: Criterion, c2: Criterion)
    requires forall a :: Matches(a, c1) <==> !Matches(a, c2)
    ensures |Select(annotations, c1)| + |Select(annotations, c2)| == |annotations|
  {
    if annotations != [] {
      SelectComplement(annotations[1..], c1, c2);
    }
  }

  /** Filtering by `c1` first changes nothing for a stricter filter `c2`. */
  lemma {:induction false} SelectNested(annotations: seq<Annotation>, c1: Criterion, c2: Criterion)
    requires forall a :: Matches(a, c2) ==> Matches(a, c1)
    ensures Select(Select(annotations, c1), c2) == Select(annotations, c2)
  {
    if annotations != [] {
      SelectNested(annotations[1..], c1, c2);
      var head := if Matches(annotations[0], c1) then [annotations[0]] else [];
      SelectAppend(head, Select(annotations[1..], c1), c2);
    }
  }

  /** The cascade of `removeSymbol(id)` drops exactly the symbol's annotations:
      the survivors number `|annotations| - getSymbolCount(id)`, none of them
      references `id`, and every other symbol keeps its count. */
  lemma CascadeRemovesExactlyCount(annotations: seq<Annotation>, id: string, other: string)
    requires other != id
    ensures |Select(annotations, NotOfSymbol(id))| == |annotations| - SymbolCount(annotations, id)
    ensures SymbolCount(Select(annotations, NotOfSymbol(id)), id) == 0
    ensures SymbolCount(Select(annotations, NotOfSymbol(id)), other) == SymbolCount(annotations, other)
  {
    SelectComplement(annotations, OfSymbol(id), NotOfSymbol(id));
    SelectNone(Select(annotations, NotOfSymbol(id)), OfSymbol(id));
    SelectNested(annotations, NotOfSymbol(id), OfSymbol(other));
  }
}

=== FILE: store.dfy ===
/** The application store: one object that owns the uploaded file, the symbol
    list, the annotation list and the view state. Mutators replace whole
    fields, as the store's `set` calls do; the two loop-built queries are
    methods, the others are the functions of module Queries applied to the
    fields. Ids, which the source derives from the clock and a random number,
    are supplied by the caller. */
module Store {
  import opened Types
  import opened Queries

  /** The symbol `addSymbol` creates from its input and a new id. */
  function NewSymbol(input: SymbolInput, id: string): Symbol
  {
    Symbol(id, input.name, input.color, input.shape, SizeOrDefault(input.size), 0)
  }

  /** The annotation `addAnnotation` creates from its input and a new id. */
  function NewAnnotation(input: AnnotationInput, id: string): Annotation
  {
    Annotation(id, input.symbolId, input.pageNumber, input.x, input.y)
  }

  /** The `activeSymbol` left by `removeSymbol(id)`. */
  function ActiveAfterRemoval(active: Option<Symbol>, id: string): (r: Option<Symbol>)
    ensures r == None <==> active == None || active.value.id == id
    ensures r != None ==> r == active
  {
    if active.Some? && active.value.id == id then None else active
  }

  /** A snapshot of every field of the store, so that a caller's contract can
      say which fields one of its handlers changed. */
  datatype StoreState = StoreState(
    pdfFile: Option<PdfFile>, symbols: seq<Symbol>, annotations: seq<Annotation>,
    activePage: int, totalPages: int, activeSymbol: Option<Symbol>, scale: real)

  class AppStore {
    var pdfFile: Option<PdfFile>
    var symbols: seq<Symbol>
    var annotations: seq<Annotation>
    var activePage: int
    var totalPages: int
    var activeSymbol: Option<Symbol>
    var scale: real

    function State(): StoreState
      reads this
    {
      StoreState(pdfFile, symbols, annotations, activePage, totalPages, activeSymbol, scale)
    }

    /** The design's integrity rule: every annotation names a live symbol,
        and so does the active symbol that the next click will place. */
    predicate Consistent()
      reads this
    {
      ReferencesLive(symbols, annotations) && ActiveLive(symbols, activeSymbol)
    }

    /** The store's initial state. */
    constructor ()
      ensures pdfFile == None && symbols == [] && annotations == []
      ensures activePage == 1 && totalPages == 0 && activeSymbol == None && scale == 1.0
      ensures Consistent()
    {
      pdfFile := None;
      symbols := [];
      annotations := [];
      activePage := 1;
      totalPages := 0;
      activeSymbol := None;
      scale := 1.0;
    }

    /** Stores the file; symbols, annotations and the page are kept. */
    method SetPdfFile(file: Option<PdfFile>)
      modifies this
      ensures pdfFile == file
      ensures symbols == old(symbols) && annotations == old(annotations) && activePage == old(activePage)
      ensures totalPages == old(totalPages) && activeSymbol == old(activeSymbol) && scale == old(scale)
    {
      pdfFile := file;
    }

    /** Stores the page count as given. */
    method SetTotalPages(pages: int)
      modifies this
      ensures totalPages == pages
      ensures pdfFile == old(pdfFile) && symbols == old(symbols) && annotations == old(annotations)
      ensures activePage == old(activePage) && activeSymbol == old(activeSymbol) && scale == old(scale)
    {
      totalPages := pages;
    }

    /** Stores the page as given, without clamping it to 1..totalPages. */
    method SetActivePage(page: int)
      modifies this
      ensures activePage == page
      ensures pdfFile == old(pdfFile) && symbols == old(symbols) && annotations == old(annotations)
      ensures totalPages == old(totalPages) && activeSymbol == old(activeSymbol) && scale == old(scale)
    {
      activePage := page;
    }

    /** Stores the scale as given, without clamping it to 0.5..2.5. */
    method SetScale(newScale: real)
      modifies this
      ensures scale == newScale
      ensures pdfFile == old(pdfFile) && symbols == old(symbols) && annotations == old(annotations)
      ensures activePage == old(activePage) && totalPages == old(totalPages) && activeSymbol == old(activeSymbol)
    {
      scale := newScale;
    }

    /** Appends one symbol with the given id, count 0 and size 24 when the
        given size is 0, and makes it the active symbol. */
    method AddSymbol(input: SymbolInput, id: string)
      modifies this
      ensures symbols == old(symbols) + [NewSymbol(input, id)]
      ensures activeSymbol == Some(NewSymbol(input, id))
      ensures old(Consistent()) ==> Consistent()
      ensures pdfFile == old(pdfFile) && annotations == old(annotations)
      ensures activePage == old(activePage) && totalPages == old(totalPages) && scale == old(scale)
    {
      var symbol := NewSymbol(input, id);
      symbols := symbols + [symbol];
      activeSymbol := Some(symbol);
    }

    /** Removes every symbol with this id and every annotation that
        references it, and clears the active symbol when it is the one
        removed. */
    method RemoveSymbol(id: string)
      modifies this
      ensures symbols == SymbolsWithout(old(symbols), id)
      ensures annotations == Select(old(annotations), NotOfSymbol(id))
      ensures activeSymbol == ActiveAfterRemoval(old(activeSymbol), id)
      ensures old(Consistent()) ==> Consistent()
      ensures ReferencesLive(old(symbols), old(annotations)) ==> ReferencesLive(symbols, annotations)
      ensures pdfFile == old(pdfFile) && activePage == old(activePage) && totalPages == old(totalPages) && scale == old(scale)
    {
      var filteredAnnotations := Select(annotations, NotOfSymbol(id));
      RemoveSymbolKeepsIntegrity(symbols, annotations, id);
      if ActiveLive(symbols, activeSymbol) {
        RemovalKeepsActiveLive(symbols, activeSymbol, id);
      }
      symbols := SymbolsWithout(symbols, id);
      annotations := filteredAnnotations;
      activeSymbol := ActiveAfterRemoval(activeSymbol, id);
    }

    /** Makes `symbol` the active symbol, without checking it. */
    method SetActiveSymbol(symbol: Option<Symbol>)
      modifies this
      ensures activeSymbol == symbol
      ensures old(Consistent()) && (symbol == None || symbol.value in symbols) ==> Consistent()
      ensures pdfFile == old(pdfFile) && symbols == old(symbols) && annotations == old(annotations)
      ensures activePage == old(activePage) && totalPages == old(totalPages) && scale == old(scale)
    {
      activeSymbol := symbol;
    }

    /** Appends one annotation with the given id; `symbolId` is not checked. */
    method AddAnnotation(input: AnnotationInput, id: string)
      modifies this
      ensures annotations == old(annotations) + [NewAnnotation(input, id)]
      ensures old(Consistent()) ==> (Consistent() <==> input.symbolId in SymbolIds(symbols))
      ensures pdfFile == old(pdfFile) && symbols == old(symbols) && activeSymbol == old(activeSymbol)
      ensures activePage == old(activePage) && totalPages == old(totalPages) && scale == old(scale)
    {
      AddAnnotationIntegrity(symbols, annotations, NewAnnotation(input, id));
      annotations := annotations + [NewAnnotation(input, id)];
    }

    /** Removes every annotation with this id. */
    method RemoveAnnotation(id: string)
      modifies this
      ensures annotations == Select(old(annotations), NotWithId(id))
      ensures old(Consistent()) ==> Consistent()
      ensures pdfFile == old(pdfFile) && symbols == old(symbols) && activeSymbol == old(activeSymbol)
      ensures activePage == old(activePage) && totalPages == old(totalPages) && scale == old(scale)
    {
      annotations := Select(annotations, NotWithId(id));
    }

    /** `getSymbolPageCounts(id)`: walks pages 1..totalPages and keeps those on
        which the symbol has annotations. */
    method GetSymbolPageCounts(id: string) returns (pageCounts: seq<PageSymbolCount>)
      ensures pageCounts == PageCounts(annotations, totalPages, id)
    {
      pageCounts := [];
      var page := 1;
      while page <= totalPages
        invariant 1 <= page <= totalPages + 1 || page == 1
        invariant pageCounts == PageCountsFrom(annotations, id, 1, page - 1)
        decreases totalPages - page
      {
        var count := SymbolCountByPage(annotations, id, page);
        PageCountsSnoc(annotations, id, 1, page);
        if count > 0 {
          pageCounts := pageCounts + [PageSymbolCount(page, count)];
        }
        page := page + 1;
      }
    }

    /** `getPagesWithSymbols()`: collects the annotations' pages in a set and
        returns them sorted ascending, whatever `totalPages` is. */
    method GetPagesWithSymbols() returns (pages: seq<int>)
      ensures StrictlyAscending(pages)
      ensures forall p :: p in pages <==> p in PageSet(annotations)
    {
      var pageSet: set<int> := {};
      for i := 0 to |annotations|
        invariant pageSet == PageSet(annotations[..i])
      {
        assert annotations[..i + 1] == annotations[..i] + [annotations[i]];
        pageSet := pageSet + {annotations[i].pageNumber};
      }
      assert annotations[..|annotations|] == annotations;
      pages := SortAscending(pageSet);
    }
  }

  /** The entries for pages lo..hi are those for lo..hi-1 followed by
      page hi's entry when its count is not 0. */
  lemma {:induction false} PageCountsSnoc(annotations: seq<Annotation>, id: string, lo: int, hi: int)
    requires lo <= hi
    ensures PageCountsFrom(annotations, id, lo, hi) ==
            PageCountsFrom(annotations, id, lo, hi - 1) +
            (if SymbolCountByPage(annotations, id, hi) > 0 then [PageSymbolCount(hi, SymbolCountByPage(annotations, id, hi))] else [])
    decreases hi - lo
  {
    var last := if SymbolCountByPage(annotations, id, hi) > 0 then [PageSymbolCount(hi, SymbolCountByPage(annotations, id, hi))] else [];
    if lo == hi {
      assert PageCountsFrom(annotations, id, lo, hi - 1) == [];
      assert PageCountsFrom(annotations, id, lo + 1, hi) == [];
    } else {
      PageCountsSnoc(annotations, id, lo + 1, hi);
      var head := if SymbolCountByPage(annotations, id, lo) > 0 then [PageSymbolCount(lo, SymbolCountByPage(annotations, id, lo))] else [];
      assert PageCountsFrom(annotations, id, lo, hi) == head + PageCountsFrom(annotations, id, lo + 1, hi);
      assert PageCountsFrom(annotations, id, lo, hi - 1) == head + PageCountsFrom(annotations, id, lo + 1, hi - 1);
      assert head + (PageCountsFrom(annotations, id, lo + 1, hi - 1) + last) == (head + PageCountsFrom(annotations, id, lo + 1, hi - 1)) + last;
    }
  }

  /** A non-empty finite set of integers has a least element. */
  lemma {:induction false} LeastElement(s: set<int>) returns (m: int)
    requires s != {}
    ensures m in s && forall y :: y in s ==> m <= y
    decreases |s|
  {
    if forall y :: y !in s {
      assert false;
    }
    var x :| x in s;
    var t := s - {x};
    if t == {} {
      m := x;
      forall y | y in s ensures m <= y {
        assert y !in t;
      }
    } else {
      var least := LeastElement(t);
      m := if x < least then x else least;
      forall y | y in s ensures m <= y {
        if y != x {
          assert y in t;
        }
      }
    }
  }

  /** `Array.from(set).sort((a, b) => a - b)`: the set's elements, ascending. */
  method SortAscending(s: set<int>) returns (r: seq<int>)
    ensures StrictlyAscending(r)
    ensures forall x :: x in r <==> x in s
  {
    r := [];
    var rest := s;
    while rest != {}
      invariant rest <= s
      invariant StrictlyAscending(r)
      invariant forall x :: x in s <==> x in r || x in rest
      invariant forall i, y :: 0 <= i < |r| && y in rest ==> r[i] < y
      decreases rest
    {
      ghost var least := LeastElement(rest);
      var m :| m in rest && forall y :: y in rest ==> m <= y;
      r := r + [m];
      rest := rest - {m};
    }
  }

  // ---- invariants of the mutators, on the store's lists --------------------

  /** The cascade keeps referential integrity: if every annotation referenced
      a live symbol before `removeSymbol`, every survivor still does. */
  lemma RemoveSymbolKeepsIntegrity(symbols: seq<Symbol>, annotations: seq<Annotation>, id: string)
    ensures ReferencesLive(symbols, annotations) ==>
            ReferencesLive(SymbolsWithout(symbols, id), Select(annotations, NotOfSymbol(id)))
  {
  }

  /** Appending an annotation keeps referential integrity exactly when its
      `symbolId` is live: `addAnnotation` checks nothing, so integrity rests
      on its callers. */
  lemma AddAnnotationIntegrity(symbols: seq<Symbol>, annotations: seq<Annotation>, a: Annotation)
    ensures ReferencesLive(symbols, annotations + [a]) <==>
            ReferencesLive(symbols, annotations) && a.symbolId in SymbolIds(symbols)
  {
    assert a in annotations + [a];
    assert forall b :: b in annotations ==> b in annotations + [a];
  }

  /** `removeSymbol` never leaves a dangling active symbol: either it keeps
      one that survives the removal or it clears it. */
  lemma RemovalKeepsActiveLive(symbols: seq<Symbol>, active: Option<Symbol>, id: string)
    requires ActiveLive(symbols, active)
    ensures ActiveLive(SymbolsWithout(symbols, id), ActiveAfterRemoval(active, id))
  {
  }

  /** A click places an annotation of the active symbol, so when the store
      is consistent before the click it still is after it. */
  lemma ClickKeepsIntegrity(symbols: seq<Symbol>, annotations: seq<Annotation>, active: Symbol,
                            id: string, page: int, x: real, y: real)
    requires ReferencesLive(symbols, annotations) && ActiveLive(symbols, Some(active))
    ensures ReferencesLive(symbols, annotations + [Annotation(id, active.id, page, x, y)])
  {
    AddAnnotationIntegrity(symbols, annotations, Annotation(id, active.id, page, x, y));
  }

  /** Appending a symbol or removing annotations never breaks integrity. */
  lemma GrowShrinkKeepIntegrity(symbols: seq<Symbol>, annotations: seq<Annotation>, s: Symbol, id: string)
    requires ReferencesLive(symbols, annotations)
    ensures ReferencesLive(symbols + [s], annotations)
    ensures ReferencesLive(symbols, Select(annotations, NotWithId(id)))
  {
    assert SymbolIds(symbols) <= SymbolIds(symbols + [s]) by {
      assert forall t :: t in symbols ==> t in symbols + [s];
    }
  }

  /** Symbol ids stay distinct: appending a symbol whose id is new keeps them
      distinct, and removal keeps a sub-list. */
  lemma {:induction false} UniqueIdsPreserved(symbols: seq<Symbol>, s: Symbol, id: string)
    requires UniqueIds(symbols)
    ensures s.id !in SymbolIds(symbols) ==> UniqueIds(symbols + [s])
    ensures UniqueIds(SymbolsWithout(symbols, id))
  {
    if s.id !in SymbolIds(symbols) {
      var t := symbols + [s];
      forall i, j | 0 <= i < j < |t| ensures t[i].id != t[j].id {
        if j == |symbols| {
          assert t[i] in symbols;
        }
      }
    }
    WithoutKeepsUnique(symbols, id);
  }

  lemma {:induction false} WithoutKeepsUnique(symbols: seq<Symbol>, id: string)
    requires UniqueIds(symbols)
    ensures UniqueIds(SymbolsWithout(symbols, id))
  {
    if symbols != [] {
      var rest := symbols[1..];
      WithoutKeepsUnique(rest, id);
      var tail := SymbolsWithout(rest, id);
      if symbols[0].id != id {
        var r := [symbols[0]] + tail;
        forall i, j | 0 <= i < j < |r| ensures r[i].id != r[j].id {
          if i == 0 {
            assert r[j] in rest;
            var k :| 0 <= k < |rest| && rest[k] == r[j];
            assert symbols[k + 1] == r[j];
          } else {
            assert r[i] == tail[i - 1] && r[j] == tail[j - 1];
          }
        }
      }
    }
  }

  /** `removeAnnotation(id)` drops every annotation with that id, keeps the
      others in order, and changes nothing when the id is absent. */
  lemma RemoveAnnotationExact(annotations: seq<Annotation>, id: string)
    ensures forall a :: a in Select(annotations, NotWithId(id)) <==> a in annotations && a.id != id
    ensures (forall a :: a in annotations ==> a.id != id) ==> Select(annotations, NotWithId(id)) == annotations
  {
    if forall a :: a in annotations ==> a.id != id {
      SelectAll(annotations, NotWithId(id));
    }
  }
}

=== FILE: symbol_palette.dfy ===
/** The symbol palette: the new-symbol form and its validation, the size
    labels, the edit toggle and the delete confirmation. */
module SymbolPalette {
  import opened Types
  import opened Text
  import opened Queries
  import opened Store

  /** The bounds of the size slider. */
  const SizeMin: int := 12
  const SizeMax: int := 48

  /** The name field's `maxLength`. */
  const NameMaxLength: int := 50

  /** The eighteen colors the form offers; the first is the default. */
  const PaletteColors: seq<string> := [
    "#FF5252", "#FF4081", "#9C27B0", "#673AB7", "#3F51B5", "#2196F3",
    "#03A9F4", "#00BCD4", "#009688", "#4CAF50", "#8BC34A", "#CDDC39",
    "#FFEB3B", "#FFC107", "#FF9800", "#FF5722", "#795548", "#607D8B"]

  const DefaultColor: string := "#FF5252"

  /** The shapes the form's buttons offer: every shape but the custom one. */
  predicate Offered(shape: Shape)
  {
    shape != Custom
  }

  // ---- size labels ---------------------------------------------------------

  /** `getSizeLabel`: the size's band. */
  function GetSizeLabel(size: int): (r: string)
    ensures r == "Small" <==> size <= 16
    ensures r == "Medium" <==> 16 < size <= 24
    ensures r == "Large" <==> 24 < size <= 32
    ensures r == "X-Large" <==> 32 < size
  {
    if size <= 16 then "Small"
    else if size <= 24 then "Medium"
    else if size <= 32 then "Large"
    else "X-Large"
  }

  /** The order of the bands, smallest first. */
  function LabelRank(band: string): nat
  {
    if band == "Small" then 0
    else if band == "Medium" then 1
    else if band == "Large" then 2
    else 3
  }

  /** A larger size never gets a smaller band. */
  lemma SizeLabelMonotone(a: int, b: int)
    requires a <= b
    ensures LabelRank(GetSizeLabel(a)) <= LabelRank(GetSizeLabel(b))
  {
  }

  /** Every band is reachable with the slider, and the default size is
      Medium. */
  lemma SliderReachesEveryLabel()
    ensures GetSizeLabel(SizeMin) == "Small" && GetSizeLabel(SizeMax) == "X-Large"
    ensures GetSizeLabel(20) == "Medium" && GetSizeLabel(30) == "Large"
    ensures GetSizeLabel(DefaultSize) == "Medium"
  {
  }

  // ---- the new-symbol form -------------------------------------------------

  datatype SymbolForm = SymbolForm(name: string, color: string, shape: Shape, size: int)

  /** The form as first shown and as reset after adding or cancelling. */
  const DefaultForm: SymbolForm := SymbolForm("", DefaultColor, Circle, DefaultSize)

  /** What the form's controls can produce: a name within the field's
      length, one of the offered colors and shapes, and a size on the
      slider. */
  predicate FormValid(form: SymbolForm)
  {
    |form.name| <= NameMaxLength && form.color in PaletteColors &&
    Offered(form.shape) && SizeMin <= form.size <= SizeMax
  }

  /** The reset form is a form the controls could have produced. */
  lemma DefaultFormValid()
    ensures FormValid(DefaultForm)
  {
    assert PaletteColors[0] == DefaultColor;
  }

  /** The form's fields as `addSymbol` receives them; the name is passed
      untrimmed. */
  function FormInput(form: SymbolForm): SymbolInput
  {
    SymbolInput(form.name, form.color, form.shape, form.size)
  }

  /** The name passes validation when trimming leaves something. */
  predicate NameAccepted(name: string)
  {
    Trim(name) != []
  }

  /** A name is refused exactly when it is empty or all whitespace. */
  lemma NameAcceptedIffNotBlank(name: string)
    ensures !NameAccepted(name) <==> forall i :: 0 <= i < |name| ==> IsJsWhitespace(name[i])
  {
    TrimEmptyIffBlank(name);
  }

  /** A symbol created from a valid form keeps the form's size, which lies
      on the slider, so its marker is drawn at that size. */
  lemma CreatedSymbolSizeInRange(form: SymbolForm, id: string)
    requires FormValid(form)
    ensures SizeMin <= NewSymbol(FormInput(form), id).size <= SizeMax
    ensures SizeOrDefault(NewSymbol(FormInput(form), id).size) == form.size
  {
  }

  // ---- the edit toggle -----------------------------------------------------

  /** The editing id after `toggleEditSymbol(id)`. */
  function Toggled(editing: Option<string>, id: string): (r: Option<string>)
    ensures r == None <==> editing == Some(id)
    ensures r != None ==> r == Some(id)
  {
    if editing == Some(id) then None else Some(id)
  }

  /** Toggling twice restores the state when starting from nothing or from
      the same symbol; starting from another symbol it ends on nothing. */
  lemma ToggleTwice(editing: Option<string>, id: string)
    ensures editing == None || editing == Some(id) ==> Toggled(Toggled(editing, id), id) == editing
    ensures editing != None && editing != Some(id) ==> Toggled(Toggled(editing, id), id) == None
  {
  }

  // ---- the palette ---------------------------------------------------------

  class Palette {
    const store: AppStore
    var form: SymbolForm
    var isCreating: bool
    var editingSymbol: Option<string>
    var showDeleteModal: bool
    var symbolToDelete: Option<Symbol>

    /** The form's invariant: the controls only produce valid forms. */
    predicate Valid()
      reads this
    {
      FormValid(form)
    }

    constructor (store: AppStore)
      ensures this.store == store && form == DefaultForm && !isCreating
      ensures editingSymbol == None && !showDeleteModal && symbolToDelete == None
      ensures Valid()
    {
      this.store := store;
      form := DefaultForm;
      isCreating := false;
      editingSymbol := None;
      showDeleteModal := false;
      symbolToDelete := None;
      DefaultFormValid();
    }

    /** The "Add Symbol" buttons: open the form. */
    method StartCreating()
      modifies this
      ensures isCreating && form == old(form) && editingSymbol == old(editingSymbol)
      ensures showDeleteModal == old(showDeleteModal) && symbolToDelete == old(symbolToDelete)
    {
      isCreating := true;
    }

    /** Typing a name; the field holds at most 50 characters. */
    method SetFormName(name: string)
      requires Valid() && |name| <= NameMaxLength
      modifies this
      ensures form == old(form).(name := name) && Valid()
      ensures isCreating == old(isCreating) && editingSymbol == old(editingSymbol)
      ensures showDeleteModal == old(showDeleteModal) && symbolToDelete == old(symbolToDelete)
    {
      form := form.(name := name);
    }

    /** Choosing one of the offered colors. */
    method SetFormColor(color: string)
      requires Valid() && color in PaletteColors
      modifies this
      ensures form == old(form).(color := color) && Valid()
      ensures isCreating == old(isCreating) && editingSymbol == old(editingSymbol)
      ensures showDeleteModal == old(showDeleteModal) && symbolToDelete == old(symbolToDelete)
    {
      form := form.(color := color);
    }

    /** Choosing one of the offered shapes. */
    method SetFormShape(shape: Shape)
      requires Valid() && Offered(shape)
      modifies this
      ensures form == old(form).(shape := shape) && Valid()
      ensures isCreating == old(isCreating) && editingSymbol == old(editingSymbol)
      ensures showDeleteModal == old(showDeleteModal) && symbolToDelete == old(symbolToDelete)
    {
      form := form.(shape := shape);
    }

    /** Moving the size slider, whose values lie in 12..48. */
    method SetFormSize(size: int)
      requires Valid() && SizeMin <= size <= SizeMax
      modifies this
      ensures form == old(form).(size := size) && Valid()
      ensures isCreating == old(isCreating) && editingSymbol == old(editingSymbol)
      ensures showDeleteModal == old(showDeleteModal) && symbolToDelete == old(symbolToDelete)
    {
      form := form.(size := size);
    }

    /** `handleAddSymbol`: a blank name is refused with an alert and nothing
        changes; otherwise the form's fields go to `addSymbol`, the form is
        reset and closed. */
    method HandleAddSymbol(id: string) returns (alerted: bool)
      requires Valid()
      modifies this, store
      ensures alerted <==> !NameAccepted(old(form).name)
      ensures alerted ==> store.State() == old(store.State()) && form == old(form) && isCreating == old(isCreating)
      ensures !alerted ==>
        store.State() == old(store.State()).(symbols := old(store.symbols) + [NewSymbol(FormInput(old(form)), id)],
                                             activeSymbol := Some(NewSymbol(FormInput(old(form)), id)))
      ensures !alerted ==> form == DefaultForm && !isCreating
      ensures old(store.Consistent()) ==> store.Consistent()
      ensures editingSymbol == old(editingSymbol) && showDeleteModal == old(showDeleteModal)
      ensures symbolToDelete == old(symbolToDelete)
      ensures Valid()
    {
      if !NameAccepted(form.name) {
        return true;
      }
      store.AddSymbol(FormInput(form), id);
      form := DefaultForm;
      isCreating := false;
      DefaultFormValid();
      alerted := false;
    }

    /** `handleCancel`: closes the form and resets it. */
    method HandleCancel()
      modifies this
      ensures !isCreating && form == DefaultForm && Valid()
      ensures editingSymbol == old(editingSymbol) && showDeleteModal == old(showDeleteModal)
      ensures symbolToDelete == old(symbolToDelete)
    {
      isCreating := false;
      form := DefaultForm;
      DefaultFormValid();
    }

    /** `toggleEditSymbol`. */
    method ToggleEditSymbol(symbolId: string)
      modifies this
      ensures editingSymbol == Toggled(old(editingSymbol), symbolId)
      ensures form == old(form) && isCreating == old(isCreating)
      ensures showDeleteModal == old(showDeleteModal) && symbolToDelete == old(symbolToDelete)
    {
      if editingSymbol == Some(symbolId) {
        editingSymbol := None;
      } else {
        editingSymbol := Some(symbolId);
      }
    }

    /** Clicking a symbol's row makes it active, unless it is being edited;
        the rows are the store's symbols. */
    method SelectSymbol(symbol: Symbol)
      requires symbol in store.symbols
      modifies store
      ensures old(store.Consistent()) ==> store.Consistent()
      ensures editingSymbol == Some(symbol.id) ==> store.State() == old(store.State())
      ensures editingSymbol != Some(symbol.id) ==> store.State() == old(store.State()).(activeSymbol := Some(symbol))
    {
      if editingSymbol != Some(symbol.id) {
        store.SetActiveSymbol(Some(symbol));
      }
    }

    /** `handleDeleteClick`: remembers the symbol and opens the dialog. */
    method HandleDeleteClick(symbol: Symbol)
      modifies this
      ensures symbolToDelete == Some(symbol) && showDeleteModal
      ensures form == old(form) && isCreating == old(isCreating) && editingSymbol == old(editingSymbol)
    {
      symbolToDelete := Some(symbol);
      showDeleteModal := true;
    }

    /** `confirmDelete`: removes the pending symbol (with its annotations)
        when there is one, then closes the dialog and forgets it. */
    method ConfirmDelete()
      modifies this, store
      ensures old(symbolToDelete) == None ==> store.State() == old(store.State())
      ensures old(symbolToDelete) != None ==>
        var id := old(symbolToDelete).value.id;
        store.State() == old(store.State()).(
          symbols := SymbolsWithout(old(store.symbols), id),
          annotations := Select(old(store.annotations), NotOfSymbol(id)),
          activeSymbol := ActiveAfterRemoval(old(store.activeSymbol), id))
      ensures old(store.Consistent()) ==> store.Consistent()
      ensures !showDeleteModal && symbolToDelete == None
      ensures form == old(form) && isCreating == old(isCreating) && editingSymbol == old(editingSymbol)
    {
      if symbolToDelete != None {
        store.RemoveSymbol(symbolToDelete.value.id);
      }
      showDeleteModal := false;
      symbolToDelete := None;
    }

    /** The dialog's cancel: closes it but keeps the pending symbol. */
    method CancelDelete()
      modifies this
      ensures !showDeleteModal && symbolToDelete == old(symbolToDelete)
      ensures form == old(form) && isCreating == old(isCreating) && editingSymbol == old(editingSymbol)
    {
      showDeleteModal := false;
    }
  }
}

=== FILE: text.dfy ===
/** String helpers the components rely on: JavaScript's rendering of integers
    as decimal text, `String.prototype.trim`, the upper-casing of a first
    letter, and counting a character (used to count CSV lines). */
module Text {

  predicate IsDigit(c: char)
  {
    '0' <= c <= '9'
  }

  predicate AllDigits(s: string)
  {
    forall i :: 0 <= i < |s| ==> IsDigit(s[i])
  }

  function DigitChar(d: int): (c: char)
    requires 0 <= d < 10
    ensures IsDigit(c)
  {
    "0123456789"[d]
  }

  function DigitValue(c: char): (d: nat)
    requires IsDigit(c)
    ensures d < 10
  {
    (c as int) - ('0' as int)
  }

  /** The decimal text of a natural number, as `${n}` renders it. */
  function NatToDecimal(n: nat): (s: string)
    ensures |s| >= 1 && AllDigits(s)
    ensures |s| > 1 ==> s[0] != '0'
    decreases n
  {
    if n < 10 then [DigitChar(n)] else NatToDecimal(n / 10) + [DigitChar(n % 10)]
  }

  /** The decimal text of an integer: one leading '-' for negative values,
      then the digits of its magnitude. */
  function IntToDecimal(i: int): (s: string)
    ensures |s| >= 1
    ensures forall k :: 0 <= k < |s| ==> IsDigit(s[k]) || s[k] == '-'
    ensures i >= 0 ==> AllDigits(s)
    ensures s[0] == '-' <==> i < 0
    ensures i < 0 ==> |s| >= 2 && AllDigits(s[1..])
  {
    if i < 0 then "-" + NatToDecimal(-i) else NatToDecimal(i)
  }

  /** The value denoted by a string of decimal digits (the empty string is 0). */
  function DecimalValue(s: string): nat
    requires AllDigits(s)
  {
    if s == [] then 0 else DecimalValue(s[..|s| - 1]) * 10 + DigitValue(s[|s| - 1])
  }

  /** Reading back the rendered digits gives the number again. */
  lemma {:induction false} DecimalRoundTrip(n: nat)
    ensures DecimalValue(NatToDecimal(n)) == n
    decreases n
  {
    var s := NatToDecimal(n);
    if n >= 10 {
      DecimalRoundTrip(n / 10);
      var prefix := NatToDecimal(n / 10);
      assert s == prefix + [DigitChar(n % 10)];
      assert s[..|s| - 1] == prefix;
      assert DigitValue(DigitChar(n % 10)) == n % 10 by {
        assert DigitChar(n % 10) == "0123456789"[n % 10];
      }
    } else {
      assert s == [DigitChar(n)];
      assert s[..0] == [];
      assert DigitValue("0123456789"[n]) == n;
    }
  }

  /** The rendered integer denotes that integer: its digits read back as
      the magnitude, behind a '-' exactly when it is negative. */
  lemma IntToDecimalValue(i: int)
    ensures i >= 0 ==> AllDigits(IntToDecimal(i)) && DecimalValue(IntToDecimal(i)) == i
    ensures i < 0 ==> IntToDecimal(i)[0] == '-' && AllDigits(IntToDecimal(i)[1..]) &&
                      DecimalValue(IntToDecimal(i)[1..]) == -i
  {
    if i >= 0 {
      DecimalRoundTrip(i);
    } else {
      DecimalRoundTrip(-i);
      assert IntToDecimal(i)[1..] == NatToDecimal(-i);
    }
  }

  /** The characters `trim` strips: ECMAScript WhiteSpace and LineTerminator. */
  predicate IsJsWhitespace(c: char)
  {
    var u := c as int;
    u == 0x09 || u == 0x0A || u == 0x0B || u == 0x0C || u == 0x0D || u == 0x20 ||
    u == 0xA0 || u == 0x1680 || (0x2000 <= u <= 0x200A) || u == 0x2028 ||
    u == 0x2029 || u == 0x202F || u == 0x205F || u == 0x3000 || u == 0xFEFF
  }

  /** `s` without its leading whitespace. */
  function TrimStart(s: string): (r: string)
    ensures |r| <= |s| && r == s[|s| - |r|..]
    ensures forall i :: 0 <= i < |s| - |r| ==> IsJsWhitespace(s[i])
    ensures r == [] || !IsJsWhitespace(r[0])
  {
    if s != [] && IsJsWhitespace(s[0]) then TrimStart(s[1..]) else s
  }

  /** `s` without its trailing whitespace. */
  function TrimEnd(s: string): (r: string)
    ensures |r| <= |s| && r == s[..|r|]
    ensures forall i :: |r| <= i < |s| ==> IsJsWhitespace(s[i])
    ensures r == [] || !IsJsWhitespace(r[|r| - 1])
  {
    if s != [] && IsJsWhitespace(s[|s| - 1]) then TrimEnd(s[..|s| - 1]) else s
  }

  /** JavaScript's `s.trim()`. */
  function Trim(s: string): (r: string)
    ensures |r| <= |s|
    ensures r == [] || (!IsJsWhitespace(r[0]) && !IsJsWhitespace(r[|r| - 1]))
  {
    TrimEnd(TrimStart(s))
  }

  /** `trim` leaves nothing exactly when the string is all whitespace. */
  lemma TrimEmptyIffBlank(s: string)
    ensures Trim(s) == [] <==> forall i :: 0 <= i < |s| ==> IsJsWhitespace(s[i])
  {
    var t := TrimStart(s);
    if Trim(s) == [] {
      assert t == [];
    } else {
      var r := Trim(s);
      assert t[0] == r[0];
      assert !IsJsWhitespace(s[|s| - |t|]);
    }
  }

  /** `toUpperCase` on one character; only ASCII letters are mapped. */
  function ToUpperAscii(c: char): (u: char)
    ensures !('a' <= u <= 'z')
    ensures !('a' <= c <= 'z') ==> u == c
  {
    if 'a' <= c <= 'z' then (c as int - 'a' as int + 'A' as int) as char else c
  }

  /** `name.charAt(0).toUpperCase()`: empty for an empty name. */
  function FirstLetterUpper(name: string): (r: string)
    ensures |r| <= 1
    ensures r == [] <==> name == []
    ensures r != [] ==> r[0] == ToUpperAscii(name[0])
  {
    if name == [] then "" else [ToUpperAscii(name[0])]
  }

  /** How many times `c` occurs in `s`. */
  function Occurrences(s: string, c: char): nat
  {
    if s == [] then 0 else (if s[0] == c then 1 else 0) + Occurrences(s[1..], c)
  }

  lemma {:induction false} OccurrencesAppend(a: string, b: string, c: char)
    ensures Occurrences(a + b, c) == Occurrences(a, c) + Occurrences(b, c)
  {
    if a != [] {
      assert (a + b)[1..] == a[1..] + b;
      OccurrencesAppend(a[1..], b, c);
    } else {
      assert a + b == b;
    }
  }

  lemma {:induction false} OccurrencesAbsent(s: string, c: char)
    requires forall i :: 0 <= i < |s| ==> s[i] != c
    ensures Occurrences(s, c) == 0
  {
    if s != [] {
      OccurrencesAbsent(s[1..], c);
    }
  }
}

=== FILE: types.dfy ===
/** The entities of the takeoff model: symbols (marker kinds), annotations
    (placed markers) and the per-page count entries, plus the inputs the store
    accepts when it creates them. */
module Types {

  datatype Option<+T> = None | Some(value: T)

  /** The four marker shapes a symbol can have. */
  datatype Shape = Circle | Square | Triangle | Custom

  /** A user-defined marker kind. `count` is set to 0 on creation and never
      maintained; the real counts are always derived from the annotations. */
  datatype Symbol = Symbol(id: string, name: string, color: string, shape: Shape, size: int, count: int)

  /** What a caller hands to `addSymbol`: a symbol without `id` and `count`,
      which the store always assigns itself. */
  datatype SymbolInput = SymbolInput(name: string, color: string, shape: Shape, size: int)

  /** One placed marker, in document-space coordinates (independent of zoom). */
  datatype Annotation = Annotation(id: string, symbolId: string, pageNumber: int, x: real, y: real)

  /** What a caller hands to `addAnnotation`: everything but the `id`; none of
      these fields is validated by the store. */
  datatype AnnotationInput = AnnotationInput(symbolId: string, pageNumber: int, x: real, y: real)

  /** One entry of a symbol's per-page breakdown. */
  datatype PageSymbolCount = PageSymbolCount(page: int, count: int)

  /** A file offered to the viewer, reduced to what the viewer inspects. */
  datatype PdfFile = PdfFile(name: string, mimeType: string)

  /** The size used when a symbol's size is falsy (0 here; sizes are integers). */
  const DefaultSize: int := 24

  function SizeOrDefault(size: int): (r: int)
    ensures r != 0
    ensures size != 0 ==> r == size
    ensures size == 0 ==> r == DefaultSize
  {
    if size == 0 then DefaultSize else size
  }

  /** The ids of a list of symbols. */
  function SymbolIds(symbols: seq<Symbol>): set<string>
  {
    set s | s in symbols :: s.id
  }

  /** No two symbols share an id. */
  predicate UniqueIds(symbols: seq<Symbol>)
  {
    forall i, j :: 0 <= i < j < |symbols| ==> symbols[i].id != symbols[j].id
  }

  /** Referential integrity: every annotation names a live symbol. */
  predicate ReferencesLive(symbols: seq<Symbol>, annotations: seq<Annotation>)
  {
    forall a :: a in annotations ==> a.symbolId in SymbolIds(symbols)
  }

  /** The active symbol, when there is one, is one of the symbols: the
      palette only ever activates a symbol from its list. */
  predicate ActiveLive(symbols: seq<Symbol>, active: Option<Symbol>)
  {
    active.Some? ==> active.value in symbols
  }
}

=== FILE: viewer.dfy ===
/** The document viewer's handlers: page navigation, zoom, the keyboard
    shortcuts, placing a marker where the user clicks, and accepting a file.
    The handlers change the store through its setters; the viewer's own
    state is the loading flag and the drag highlight. */
module Viewer {
  import opened Types
  import opened Store

  // ---- page navigation -----------------------------------------------------

  /** The page `goToPreviousPage` leaves: one back, unless already on page 1
      or before it. */
  function PageAfterPrevious(page: int): (r: int)
    ensures r == page || r == page - 1
    ensures r < page <==> page > 1
    ensures page >= 1 ==> r >= 1
  {
    if page > 1 then page - 1 else page
  }

  /** The page `goToNextPage` leaves: one forward, unless already on the
      last page or beyond it. */
  function PageAfterNext(page: int, totalPages: int): (r: int)
    ensures r == page || r == page + 1
    ensures r > page <==> page < totalPages
    ensures page <= totalPages ==> r <= totalPages
  {
    if page < totalPages then page + 1 else page
  }

  /** Navigation keeps the page within 1..totalPages once it is there. */
  lemma NavigationKeepsPageInRange(page: int, totalPages: int)
    requires 1 <= page <= totalPages
    ensures 1 <= PageAfterPrevious(page) <= totalPages
    ensures 1 <= PageAfterNext(page, totalPages) <= totalPages
  {
  }

  /** Going forward then back, or back then forward, returns to the page
      whenever the first step moved. */
  lemma NavigationInverse(page: int, totalPages: int)
    ensures 1 <= page < totalPages ==> PageAfterPrevious(PageAfterNext(page, totalPages)) == page
    ensures 1 < page <= totalPages ==> PageAfterNext(PageAfterPrevious(page), totalPages) == page
  {
  }

  // ---- zoom ----------------------------------------------------------------

  const MinScale: real := 0.5
  const MaxScale: real := 2.5
  const ZoomIncrement: real := 0.1

  /** `Math.min(prevScale + 0.1, 2.5)`. */
  function ZoomedIn(scale: real): (r: real)
    ensures r <= MaxScale && r <= scale + ZoomIncrement
    ensures r == scale + ZoomIncrement || r == MaxScale
  {
    if scale + ZoomIncrement < MaxScale then scale + ZoomIncrement else MaxScale
  }

  /** `Math.max(prevScale - 0.1, 0.5)`. */
  function ZoomedOut(scale: real): (r: real)
    ensures r >= MinScale && r >= scale - ZoomIncrement
    ensures r == scale - ZoomIncrement || r == MinScale
  {
    if scale - ZoomIncrement > MinScale then scale - ZoomIncrement else MinScale
  }

  predicate ScaleInRange(scale: real)
  {
    MinScale <= scale <= MaxScale
  }

  /** Both zoom steps keep the scale within 0.5..2.5, and zooming in never
      shrinks nor zooming out grows a scale in range. */
  lemma ZoomKeepsScaleInRange(scale: real)
    requires ScaleInRange(scale)
    ensures ScaleInRange(ZoomedIn(scale)) && ZoomedIn(scale) >= scale
    ensures ScaleInRange(ZoomedOut(scale)) && ZoomedOut(scale) <= scale
  {
  }

  /** Away from the bounds, a zoom step in and one out cancel each other. */
  lemma ZoomInverse(scale: real)
    requires MinScale + ZoomIncrement <= scale <= MaxScale - ZoomIncrement
    ensures ZoomedOut(ZoomedIn(scale)) == scale
    ensures ZoomedIn(ZoomedOut(scale)) == scale
  {
  }

  /** Within one step of the upper bound, zooming in reaches it and stays there. */
  lemma ZoomInSaturates(scale: real)
    requires scale >= MaxScale - ZoomIncrement
    ensures ZoomedIn(scale) == MaxScale
    ensures ZoomedIn(ZoomedIn(scale)) == MaxScale
  {
  }

  // ---- the zoom updater as the store receives it ---------------------------

  /** The two updater callbacks the zoom buttons hand to `setScale`. */
  datatype ZoomStep = StepIn | StepOut

  /** What `setScale` may receive, and so what the source's store field
      `scale` may hold: a number, or (as the zoom buttons pass it) an updater
      callback. The model's `AppStore.scale` is a `real`: it is the intended,
      numeric store. A store as written would hold a `ScaleArgument`, which
      is what `ScaleAfterZoomAsWritten` computes. */
  datatype ScaleArgument = ScaleNumber(value: real) | ScaleUpdater(step: ZoomStep)

  /** The value an updater is meant to compute from the previous scale. */
  function ApplyStep(step: ZoomStep, previous: real): real
  {
    match step
    case StepIn => ZoomedIn(previous)
    case StepOut => ZoomedOut(previous)
  }

  /** The store's `scale` after a zoom button as the code is written: the
      store's `setScale` stores its argument verbatim, so it holds the
      callback and the previous scale is lost. */
  function ScaleAfterZoomAsWritten(previous: ScaleArgument, step: ZoomStep): ScaleArgument
  {
    ScaleUpdater(step)
  }

  /** The discrepancy: from scale 1.0, a zoom in as written leaves a value
      that is not a number at all (so `x / scale` and `width * scale` are
      NaN), where 1.1 was meant; the meant value is what the stored callback
      would compute. */
  lemma ZoomAsWrittenLosesScale(s: real)
    ensures !ScaleAfterZoomAsWritten(ScaleNumber(s), StepIn).ScaleNumber?
    ensures !ScaleAfterZoomAsWritten(ScaleNumber(s), StepOut).ScaleNumber?
    ensures ApplyStep(ScaleAfterZoomAsWritten(ScaleNumber(s), StepIn).step, s) == ZoomedIn(s)
    ensures ScaleAfterZoomAsWritten(ScaleNumber(1.0), StepIn) != ScaleNumber(1.1)
  {
  }

  // ---- file acceptance -----------------------------------------------------

  const PdfMimeType: string := "application/pdf"

  /** The file a handler hands to `setPdfFile`: the first of the list, and
      only when its type is a PDF. */
  function AcceptedFile(files: seq<PdfFile>): (r: Option<PdfFile>)
    ensures r != None <==> |files| > 0 && files[0].mimeType == PdfMimeType
    ensures r != None ==> r.value == files[0]
  {
    if |files| > 0 && files[0].mimeType == PdfMimeType then Some(files[0]) else None
  }

  // ---- the viewer ----------------------------------------------------------

  class PdfViewer {
    const store: AppStore
    var isLoading: bool
    var dragActive: bool

    constructor (store: AppStore)
      ensures this.store == store && isLoading && !dragActive
    {
      this.store := store;
      isLoading := true;
      dragActive := false;
    }

    /** `goToPreviousPage`: steps back one page and marks the page as
        loading, or changes nothing on page 1. */
    method GoToPreviousPage()
      modifies this, store
      ensures store.State() == old(store.State()).(activePage := PageAfterPrevious(old(store.activePage)))
      ensures isLoading == (old(isLoading) || old(store.activePage) > 1)
      ensures dragActive == old(dragActive)
    {
      if store.activePage > 1 {
        store.SetActivePage(store.activePage - 1);
        isLoading := true;
      }
    }

    /** `goToNextPage`: steps forward one page and marks the page as
        loading, or changes nothing on the last page. */
    method GoToNextPage()
      modifies this, store
      ensures store.State() == old(store.State()).(activePage := PageAfterNext(old(store.activePage), old(store.totalPages)))
      ensures isLoading == (old(isLoading) || old(store.activePage) < old(store.totalPages))
      ensures dragActive == old(dragActive)
    {
      if store.activePage < store.totalPages {
        store.SetActivePage(store.activePage + 1);
        isLoading := true;
      }
    }

    /** `zoomIn`, with the updater applied to the previous scale. */
    method ZoomIn()
      modifies store
      ensures store.State() == old(store.State()).(scale := ZoomedIn(old(store.scale)))
    {
      store.SetScale(ZoomedIn(store.scale));
    }

    /** `zoomOut`, with the updater applied to the previous scale. */
    method ZoomOut()
      modifies store
      ensures store.State() == old(store.State()).(scale := ZoomedOut(old(store.scale)))
    {
      store.SetScale(ZoomedOut(store.scale));
    }

    /** `handleKeyDown`: the arrows navigate, `+` and `=` zoom in, `-` zooms
        out, and any other key changes nothing. */
    method HandleKeyDown(key: string)
      modifies this, store
      ensures key == "ArrowLeft" ==>
        store.State() == old(store.State()).(activePage := PageAfterPrevious(old(store.activePage)))
      ensures key == "ArrowRight" ==>
        store.State() == old(store.State()).(activePage := PageAfterNext(old(store.activePage), old(store.totalPages)))
      ensures key == "+" || key == "=" ==> store.State() == old(store.State()).(scale := ZoomedIn(old(store.scale)))
      ensures key == "-" ==> store.State() == old(store.State()).(scale := ZoomedOut(old(store.scale)))
      ensures key !in {"ArrowLeft", "ArrowRight"} ==> isLoading == old(isLoading)
      ensures key !in {"ArrowLeft", "ArrowRight", "+", "=", "-"} ==> store.State() == old(store.State())
      ensures dragActive == old(dragActive)
    {
      if key == "ArrowLeft" {
        GoToPreviousPage();
      }
      if key == "ArrowRight" {
        GoToNextPage();
      }
      if key == "+" || key == "=" {
        ZoomIn();
      }
      if key == "-" {
        ZoomOut();
      }
    }

    /** `handleClick`: with an active symbol and a file, places one marker of
        that symbol on the current page, at the click offset divided by the
        scale (document coordinates); otherwise changes nothing. Either way
        a consistent store stays consistent. */
    method HandleClick(offsetX: real, offsetY: real, id: string)
      requires store.scale != 0.0
      modifies store
      ensures old(store.activeSymbol) == None || old(store.pdfFile) == None ==> store.State() == old(store.State())
      ensures old(store.activeSymbol) != None && old(store.pdfFile) != None ==>
        store.State() == old(store.State()).(annotations := old(store.annotations) +
          [Annotation(id, old(store.activeSymbol).value.id, old(store.activePage),
                      offsetX / old(store.scale), offsetY / old(store.scale))])
      ensures old(store.Consistent()) ==> store.Consistent()
    {
      if store.activeSymbol == None || store.pdfFile == None {
        return;
      }
      var x := offsetX / store.scale;
      var y := offsetY / store.scale;
      if store.Consistent() {
        ClickKeepsIntegrity(store.symbols, store.annotations, store.activeSymbol.value, id, store.activePage, x, y);
      }
      store.AddAnnotation(AnnotationInput(store.activeSymbol.value.id, store.activePage, x, y), id);
    }

    /** `handleFileChange`: the first chosen file becomes the document when
        it is a PDF; any other type is refused with an alert and changes
        nothing. */
    method HandleFileChange(files: seq<PdfFile>) returns (alerted: bool)
      modifies store
      ensures alerted <==> |files| > 0 && files[0].mimeType != PdfMimeType
      ensures AcceptedFile(files) == None ==> store.State() == old(store.State())
      ensures AcceptedFile(files) != None ==> store.State() == old(store.State()).(pdfFile := AcceptedFile(files))
    {
      alerted := false;
      if |files| > 0 {
        var file := files[0];
        if file.mimeType == PdfMimeType {
          store.SetPdfFile(Some(file));
        } else {
          alerted := true;
        }
      }
    }

    /** `handleDrop`: clears the drag highlight, then accepts the first
        dropped file under the same rule as `handleFileChange`. */
    method HandleDrop(files: seq<PdfFile>) returns (alerted: bool)
      modifies this, store
      ensures !dragActive && isLoading == old(isLoading)
      ensures alerted <==> |files| > 0 && files[0].mimeType != PdfMimeType
      ensures AcceptedFile(files) == None ==> store.State() == old(store.State())
      ensures AcceptedFile(files) != None ==> store.State() == old(store.State()).(pdfFile := AcceptedFile(files))
    {
      dragActive := false;
      alerted := false;
      if |files| > 0 {
        var file := files[0];
        if file.mimeType == PdfMimeType {
          store.SetPdfFile(Some(file));
        } else {
          alerted := true;
        }
      }
    }
  }
}
